=== FILE: README.md ===
# Conference schedule rules, modelled in Dafny

This project models the pure rules inside the WP Accessibility Day conference plugin.
The WordPress calls around them are not modelled. The clock, the options, the post meta and
the request flags are plain inputs. Each rule is a total function over integers, strings,
sequences and maps.

- **Schedule page** (`wpcs_schedule`, `wpad_draw_session`, `wpcs_banner`), in `slot_walk.dfy`,
  `clock_rule.dfy`, `session_draw.dfy` and `schedule_render.dfy`:
  - the hour-keyed snapshot of sessions (the last session written for an hour wins);
  - the 24-index slot walk from `start - 24` to `start`, with negative indices wrapping to `24 + i`;
  - the clock rule: the status label, the "next" flag and the clock-current test;
  - the promotion of the first loop index;
  - the slot numbers;
  - each slot's draw state: hidden panel, toggle control, wrapper and description;
  - the "current talk" line;
  - the opening-remarks entry;
  - the pre-event banner;
  - the assembled page.
- **Speakers of a session** (`wpcs_session_speakers`), in `session_draw.dfy`: the name list
  follows the reversed meta order and is empty for lightning sessions. The cards carry the
  `$title_organization` line. That line is reset only for speaker posts, so a free-text speaker
  shows the line of the nearest speaker post before it.
- **Slides and resources** (`wpcs_ends_with`, `wpcs_get_slides`, `wpcs_get_resources`), in
  `attachments.dfy`: the suffix test, and classification by the first listed extension that
  matches, else `url`.
- **Attendee cards** (`wpcs_shortcode_people`), in `attendees.dfy`: the location line and the
  employment line.
- **Admin rules** (`wpcs_save_post_session`, `wpcs_display_post_states`,
  `wpcs_manage_post_types_columns`, `wpcs_manage_sortable_columns`,
  `wpcs_update_session_date_meta`), in `session_admin.dfy`.
- **Shortcode attributes** (`str_to_bool`, `shortcode_sponsors` level selection,
  `shortcode_speakers` attribute whitelisting, speaker-ID and track deduplication), in
  `shortcodes.dfy`.
- **PHP built-ins** the rules depend on, in `php.dfy`: truthiness, `trim`, `strtolower`, `explode`,
  `implode`, `str_replace`, `intval`, `absint`, `str_pad` and `array_unique`. PHP's ordered arrays
  (`$a[$k] = $v`, `array_slice`, `+`) are in `ordered_array.dfy`.

The snapshot is keyed by the hour as an integer. PHP writes each entry under the two-digit hour
`gmdate('H', ...)` of the session time and looks slots up under `str_pad($base, 2, '0',
STR_PAD_LEFT)`. Both produce the same two-digit string for an hour, and PHP turns "10".."23" into
integer keys in both places alike. `Php.PadTwoRoundTrip` and `Php.PadTwoInjective` show that the
two-digit string names the hour one-to-one, so integer keys index the same entries.

Points where the code behaves differently from what a reader may expect; the model follows the code:
- The banner shows whenever `now < start - 600` (the code's comment: "10 minutes before start
  time"), and never in the last ten minutes before the start. The inner `now < start` test
  always holds when the banner shows, so the date and the countdown are always filled in.
- The look-ahead disjunct `date('G') === (int) $time - 1` of the current-slot test compares a
  string with an integer under `===`, so it never holds, and the last minutes of an hour never
  mark the next hour's slot current by the clock. Minute 50 itself is in neither disjunct
  (`< 50`, `> 50`). The disjunct is modelled and proved dead (`ClockRule.ClockCurrentSimplified`);
  only the promotion of the first loop index remains.
- `heading_level` of `[wpcs_speakers]` is not lower-cased; only `orderby`, `order` and
  `speaker_link` are.
- An empty `level` attribute of `[wpcs_sponsors]` also switches off `exclude`.
- The attendee card shows the location as the code composes it (`Attendees.AttendeeDetails`).
  The corrected composition is `Attendees.Location`; the two findings below show where they part.

## Model

| member | source | states |
|---|---|---|
| SlotWalk.BuildSnapshot | src/inc/schedule-output-functions.php:211-220 | every key of the snapshot is an hour 0..23, and an hour is a key exactly when some session is scheduled in it |
| SlotWalk.LastWriteWins | src/inc/schedule-output-functions.php:213-220 | the entry for an hour is that of the last session written for that hour |
| SlotWalk.LaterPostOverwrites | src/inc/schedule-output-functions.php:216-219 | appending a session replaces its hour's entry and leaves every other hour unchanged |
| SlotWalk.Base | src/inc/schedule-output-functions.php:230-234 | `24 - absint($i)` for a negative index and `$i` otherwise is the index modulo 24 for indices in -24..23 |
| SlotWalk.BaseInjective | src/inc/schedule-output-functions.php:230-234 | two indices less than 24 apart name different hours |
| SlotWalk.WalkCoversDay | src/inc/schedule-output-functions.php:221-234 | for a start between 0 and 24, the indices `start-24 .. start-1` name hours 0..23, pairwise distinct, every hour once, the first being `start mod 24` |
| SlotWalk.Populated | src/inc/schedule-output-functions.php:223-240 | the slots past the `isset` test are in the index range, name an hour of the snapshot, and come in loop order |
| SlotWalk.PopulatedComplete | src/inc/schedule-output-functions.php:238-240 | no populated index of the range is skipped |
| SlotWalk.EveryHourDrawnOnce | src/inc/schedule-output-functions.php:213-240 | with a start between 0 and 24, every hour of the snapshot is reached by some populated slot, and no two populated slots name the same hour |
| SlotWalk.PopulatedHoursDistinct | src/inc/schedule-output-functions.php:221-240 | for any start, the populated slots of the walk name pairwise different hours |
| ClockRule.LabelText | src/inc/schedule-output-functions.php:241-256 | `$text` is PHP `false` exactly in the pre-event state, and `''` exactly after the end |
| ClockRule.ClockCurrentAsWritten | src/inc/schedule-output-functions.php:243-246 | the current-slot test with its PHP precedence and the string-to-int `===`; its meaning is stated by `ClockRule.ClockCurrentSimplified` |
| ClockRule.ClockCurrentSimplified | src/inc/schedule-output-functions.php:244-246 | the current test as written, with its PHP precedence and the string-to-int `===`, holds iff `begin < now < end`, the hour matches and the minute is below 50 |
| ClockRule.Resolve | src/inc/schedule-output-functions.php:241-256 | the four label states are mutually exclusive and each holds under exactly its window/minute condition; "next" holds exactly for "Up next" and the suppressed pre-event state; clock-current implies "Now speaking" |
| ClockRule.SlotCurrent | src/inc/schedule-output-functions.php:226-260 | the flag handed to the formatter: before the window it is true exactly at the first loop index; after the end it is never true; inside the window before minute 50 it is true exactly when the window has begun and the hour is the current one; from minute 50 on it is true exactly at the first loop index |
| SessionDraw.Reverse | src/inc/schedule-output-functions.php:416 | `array_reverse`: same length, element `k` is element `n-1-k` of the input |
| SessionDraw.TitleOrg | src/inc/schedule-output-functions.php:481-489 | the line holds the title when truthy, then the organization when truthy, and nothing else |
| SessionDraw.SpeakersHeading | src/inc/schedule-output-functions.php:419-422 | the heading is shown iff there is a reference and the page is not the schedule, and is plural iff there is more than one |
| SessionDraw.Cards | src/inc/schedule-output-functions.php:471-529 | one speaker card per reference |
| SessionDraw.CardsNames | src/inc/schedule-output-functions.php:471-492 | card `k` shows the name of reference `k` (first and last name of a speaker post, the text itself otherwise) and links exactly the speaker posts |
| SessionDraw.CardsShowCarriedLine | src/inc/schedule-output-functions.php:471-520 | each card shows the title/organization line of the nearest speaker post at or before it, because `$title_organization` is reset only for numeric IDs |
| SessionDraw.LineShownTail | src/inc/schedule-output-functions.php:471-489 | the line shown at position `k` is the line shown at `k-1` of the rest, under the line the first reference carries on |
| SessionDraw.CardsUnfold | src/inc/schedule-output-functions.php:471-529 | the first card has the first reference's name, link and line, and the other cards are those of the remaining references |
| SessionDraw.SessionSpeakers | src/inc/schedule-output-functions.php:412-539 | lightning sessions list no names; other sessions list one name per reference, in reversed meta order; with speakers and a truthy `wpad_lightning_talks` value the lightning blocks are comma-free pieces that join back with "," into that value, and otherwise there are none; a regular session gets the `SpeakersHeading` heading, and card `k` shows name `k`, links exactly the speaker posts, and shows the title/organization line of the nearest speaker post at or before it |
| SessionDraw.CurrentTalkLine | src/inc/schedule-output-functions.php:330-332 | the paragraph shows the status text, links to the session's anchor `#slug`, and ends with the session title inside the link |
| SessionDraw.DrawSession | src/inc/schedule-output-functions.php:293-345 | the summary is non-empty iff the slot is current and `$text !== false`, and is then the current-talk line; a current panel is never hidden, and the others are hidden exactly when the toggles show; the control is absent exactly with `buttonsoff`, and a toggle is expanded, with the minus icon, exactly when the slot is current; the fragment carries the session's own type class, anchor, title, and the names and speaker markup of `wpcs_session_speakers`; so a lightning session has no wrapper, no description and no speaker names, the others show their description, and the panel label is shown exactly for panels |
| ScheduleRender.NumberLabel | src/inc/schedule-output-functions.php:224-225 | the visible slot number appears only with `buttonsoff` |
| ScheduleRender.NumberLabelInjective | src/inc/schedule-output-functions.php:224-225 | with `buttonsoff`, different slot numbers give different labels |
| ScheduleRender.DrawSlotState | src/inc/schedule-output-functions.php:258-262 | a drawn slot belongs to its hour's session, and its panel is hidden exactly when the toggles show and the slot is not current |
| ScheduleRender.Step | src/inc/schedule-output-functions.php:238-265 | one loop iteration: an empty hour is skipped without a number, an entry with ID 0 consumes a number and draws nothing, any other draws a fragment and sets `$current_talk`; stated through `ScheduleRender.WalkCount`, `WalkFragments` and `WalkSummary` |
| ScheduleRender.WalkTo | src/inc/schedule-output-functions.php:221-266 | the loop state after a prefix of the indices; fewer fragments than the counter `$n`, since every fragment consumes a number |
| ScheduleRender.Walk | src/inc/schedule-output-functions.php:221-266 | the loop computes the walk state, and `$n` ends one past the number of populated slots |
| ScheduleRender.WalkCount | src/inc/schedule-output-functions.php:238-265 | only populated slots consume a number; skipped empty hours do not |
| ScheduleRender.WalkFragments | src/inc/schedule-output-functions.php:258-265 | the fragments are the draws of the populated slots in loop order, and the `k`-th carries slot number `k+1` |
| ScheduleRender.WalkSummary | src/inc/schedule-output-functions.php:259-263 | `$current_talk` after the loop is the summary of the last populated slot, even when that summary is empty, and `''` when no slot is populated |
| ScheduleRender.AtMostOneClockCurrent | src/inc/schedule-output-functions.php:243-246 | over any walk of 24 indices, no two populated slots are both current by the clock |
| ScheduleRender.PreEventOnlyFirstIndexOpen | src/inc/schedule-output-functions.php:226-260 | before the window opens, with the toggles shown, a populated slot is expanded exactly when it sits at the very first loop index, so an empty first hour leaves every slot collapsed |
| ScheduleRender.Banner | src/inc/schedule-output-functions.php:387-401 | the banner is non-empty iff `now < start - 600`, and it then carries the start date and the countdown |
| ScheduleRender.Opening | src/inc/schedule-output-functions.php:267-274 | post 3395 drawn current, labelled "Up next: " and without a number; `ScheduleRender.OpeningShown` states it is expanded |
| ScheduleRender.OpeningShown | src/inc/schedule-output-functions.php:267-273 | the opening remarks are drawn expanded, as post 3395 |
| ScheduleRender.RenderSchedule | src/inc/schedule-output-functions.php:192-280 | a truthy transient without `reset_cache` is served as is; otherwise the page is the opening fragment followed by the walk's fragments, the walk's current-talk line, and the banner `wpcs_banner` computes, non-empty exactly more than ten minutes before the start |
| ScheduleRender.PageHtml | src/inc/schedule-output-functions.php:277 | banner, current-talk line, then the fragments joined by `PHP_EOL`; `ScheduleRender.FreshPageOpens` states how a page begins |
| ScheduleRender.FreshPageOpens | src/inc/schedule-output-functions.php:276-277 | a fresh page's HTML starts with the banner, then the current-talk line, then the opening-remarks markup |
| Attachments.EndsWith | src/inc/schedule-output-functions.php:684-691 | `wpcs_ends_with`; its suffix meaning is stated by `Attachments.EndsWithIsSuffix` |
| Attachments.EndsWithIsSuffix | src/inc/schedule-output-functions.php:684-691 | `wpcs_ends_with` holds iff the extension is a suffix of the source, in particular for the empty extension |
| Attachments.EndsWithAppended | src/inc/schedule-output-functions.php:684-691 | any string followed by an extension ends with it |
| Attachments.Classify | src/inc/schedule-output-functions.php:582-589 | the extension found is "url" or one of the listed ones |
| Attachments.ClassifyFirstMatch | src/inc/schedule-output-functions.php:582-589 | the result is "url" iff no listed extension matches, and otherwise it is the first listed extension that matches |
| Attachments.ClassifyNoMatch | src/inc/schedule-output-functions.php:582-589 | "url" is the answer exactly when no listed extension ends the item |
| Attachments.ClassifyMatch | src/inc/schedule-output-functions.php:582-589 | a non-"url" answer sits at a matching position with no match before it |
| Attachments.LinkFor | src/inc/schedule-output-functions.php:590-595 | a classified item gets a file link classed by its extension with the upper-cased extension in its text; otherwise a URL link when `esc_url` accepts it, else the empty entry |
| Attachments.Links | src/inc/schedule-output-functions.php:580-597 | one entry per item in item order, and nothing for a non-array meta value |
| Attachments.GetSlides | src/inc/schedule-output-functions.php:575-600 | the slide links with the seven slide extensions; stated through `Attachments.Links` and `Attachments.LinkFor` |
| Attachments.GetResources | src/inc/schedule-output-functions.php:625-658 | the resource links with the five document extensions; `Attachments.PdfResource` states the PDF case |
| Attachments.ClassifyPdf | src/inc/schedule-output-functions.php:627-639 | an item ending in `.pdf` is classified as `.pdf`, because none of the four document extensions listed before it can end the same item |
| Attachments.PdfResource | src/inc/schedule-output-functions.php:625-658 | a resource ending in `.pdf` gets the "Session Resource (PDF)" file link |
| Attendees.LocationLeadingSeparator | src/inc/schedule-output-functions.php:92-98 | as written, an empty city with a state gives a location starting with ", " |
| Attendees.LocationAsWritten | src/inc/schedule-output-functions.php:92-98 | the location as the code composes it; `Attendees.LocationAgrees` states where it equals the corrected one, and two lemmas exhibit where it does not |
| Attendees.LocationStripsCountrySeparators | src/inc/schedule-output-functions.php:92-98 | as written, an empty city and state make line 98 remove every ", " inside the country: "A, B" gives "AB" |
| Attendees.LocationParts | src/inc/schedule-output-functions.php:92-98 | the parts of a location are non-empty, and there are none exactly when city, state and country are all empty |
| Attendees.Location | src/inc/schedule-output-functions.php:92-98 | the corrected location: the non-empty parts joined by ", "; stated by `Attendees.LocationStartsWithFirstPart` |
| Attendees.LocationStartsWithFirstPart | src/inc/schedule-output-functions.php:92-98 | the corrected location is empty iff every part is, and otherwise starts with its first non-empty part |
| Attendees.LocationOfCountryOnly | src/inc/schedule-output-functions.php:92-98 | the corrected location of a country alone is the country unchanged |
| Attendees.LocationAgrees | src/inc/schedule-output-functions.php:92-98 | with a city given, or with no state and a country that holds no ", ", the code's composition equals the corrected one |
| Attendees.Employment | src/inc/schedule-output-functions.php:99-103 | the employment line is shown iff the company is truthy, and is the company alone when there is no job title |
| Attendees.EmploymentJobTitle | src/inc/schedule-output-functions.php:99-103 | a job title without a company is dropped; with one, the line is the job title, ", ", then the company |
| Attendees.AttendeeDetails | src/inc/schedule-output-functions.php:92-104 | the card's location is the code's composition when that is truthy and absent otherwise, so an empty city, state and country show none; the employment line is absent iff the company is falsy |
| Attendees.AttendeeLocationIntended | src/inc/schedule-output-functions.php:92-104 | where the composition as written is right, the card shows the corrected location unless it is the falsy "0" |
| SessionAdmin.NormalizeSessionType | src/wp-conference-schedule.php:381-384 | a listed type is kept and any other becomes "session" |
| SessionAdmin.NormalizeIdempotent | src/wp-conference-schedule.php:381-385 | normalising twice is normalising once |
| SessionAdmin.SavePostSession | src/wp-conference-schedule.php:349-401 | revisions and other post types change nothing; the speakers list is written only when authorized; the info fields are written only with the info nonce, the type normalised; no other meta key changes and no key is removed |
| SessionAdmin.SavedTypeIsKnown | src/wp-conference-schedule.php:381-385 | once the stored type is listed, every save keeps it listed |
| SessionAdmin.TypeLabel | src/wp-conference-schedule.php:486-492 | every listed type except "custom" gets a label |
| SessionAdmin.DisplayPostStates | src/wp-conference-schedule.php:471-495 | no post gives null; other post types keep their states; a session post gets its type label under `wpcs-session-type` (none for custom) and every other state keeps its value and order |
| SessionAdmin.PutKeysWithout | src/wp-conference-schedule.php:486-492 | setting a key leaves the order of all other keys unchanged |
| SessionAdmin.InsertTimeColumn | src/wp-conference-schedule.php:412-423 | other filters leave the columns unchanged |
| SessionAdmin.TimeColumnInserted | src/wp-conference-schedule.php:412-423 | the time column is inserted second; every other column keeps its value and relative order; a list that already starts with the time column is unchanged; the keys stay unique |
| SessionAdmin.TimeColumnOrder | src/wp-conference-schedule.php:417 | apart from the time column, the key order is the original one |
| SessionAdmin.MissingKeysWithout | src/wp-conference-schedule.php:417 | the `+` union drops only the keys already present |
| SessionAdmin.SortableColumns | src/wp-conference-schedule.php:455-463 | under the sortable filter the time column sorts by `_wpcs_session_time`, and every other entry is unchanged |
| SessionAdmin.RequestPostId | src/wp-conference-schedule.php:207-210 | no post parameter gives 0; a non-empty `post_ID` wins; otherwise, when either parameter is present, `absint` of `post` |
| SessionAdmin.BackfillSessionDate | src/wp-conference-schedule.php:206-217 | the date is set to the time exactly when the post ID is set, the date is empty and the time is not; nothing else changes |
| SessionAdmin.BackfillIdempotent | src/wp-conference-schedule.php:206-217 | running the back-fill twice is running it once |
| Shortcodes.StrToBool | src/wp-conference-schedule.php:834-844 | true for `true`, and for a string iff its trimmed lower-case form is yes, true or 1 |
| Shortcodes.StrToBoolPadded | src/wp-conference-schedule.php:839 | surrounding whitespace does not change the answer |
| Shortcodes.StrToBoolCaseInsensitive | src/wp-conference-schedule.php:839 | letter case does not change the answer |
| Shortcodes.StrToBoolWords | src/wp-conference-schedule.php:839 | a padded word is true iff its lower-case form is a listed word |
| Shortcodes.LowerTrim | src/wp-conference-schedule.php:839 | lower-casing and trimming commute |
| Shortcodes.SortableTerms | src/wp-conference-schedule.php:524-528 | each term is filed under its slug, and every filed term is one of the fetched terms |
| Shortcodes.DisplayedAsWritten | src/wp-conference-schedule.php:541-561 | the display loop's tests in the order written; `Shortcodes.DisplayedMatchesListed` states what it selects |
| Shortcodes.SponsorLevels | src/wp-conference-schedule.php:504-561 | the levels `[wpcs_sponsors]` displays; stated by `Shortcodes.SponsorLevelsListed` and `Shortcodes.SponsorLevelsUnlisted` |
| Shortcodes.SplitList | src/wp-conference-schedule.php:520-521 | an attribute gives no entries exactly when it is empty |
| Shortcodes.ListedLevels | src/wp-conference-schedule.php:535-561 | every shown level is listed, not excluded and has sponsors |
| Shortcodes.DisplayedMatchesListed | src/wp-conference-schedule.php:535-561 | with a level list, the loop shows the listed terms in listed order, skipping unknown, excluded and sponsor-less slugs |
| Shortcodes.SponsorLevelsListed | src/wp-conference-schedule.php:520-561 | a non-empty `level` attribute shows its levels in the listed order, skipping unknown and excluded slugs |
| Shortcodes.SponsorLevelsUnlisted | src/wp-conference-schedule.php:520-561 | an empty `level` attribute shows the fetched terms with sponsors, in fetched order, and ignores `exclude` |
| Shortcodes.TruthyParts | src/wp-conference-schedule.php:680-681 | a string is kept exactly when it is a truthy piece of the comma split; every kept part is comma-free |
| Shortcodes.SpeakerAttributes | src/wp-conference-schedule.php:652-681 | orderby, order and speaker_link are lower-cased and whitelisted with their defaults; heading_level is whitelisted as given; missing flags default to true; `track` and `groups` are the truthy pieces of their comma-separated attributes |
| Shortcodes.OrderbyCaseInsensitive | src/wp-conference-schedule.php:671-677 | the letter case of `orderby` does not matter |
| Shortcodes.OrderCaseInsensitive | src/wp-conference-schedule.php:671-678 | the letter case of `order` does not matter |
| Shortcodes.SpeakerLinkCaseInsensitive | src/wp-conference-schedule.php:671-679 | the letter case of `speaker_link` does not matter |
| Shortcodes.HeadingLevelCaseSensitive | src/wp-conference-schedule.php:753 | an upper-case heading level is not recognised and falls back to h2 |
| Shortcodes.SpeakerIds | src/wp-conference-schedule.php:704-721 | the collected speaker IDs have no duplicates |
| Shortcodes.SpeakerIdsExact | src/wp-conference-schedule.php:704-721 | an ID is collected iff it speaks in some session |
| Shortcodes.SpeakerTracks | src/wp-conference-schedule.php:710-724 | a speaker's track list has no duplicates |
| Shortcodes.SpeakerTracksExact | src/wp-conference-schedule.php:710-724 | a track is listed for a speaker iff the speaker has a session on it |
| Php.TrimIsInfix | src/wp-conference-schedule.php:839 | `trim` keeps the infix between a strippable prefix and a strippable suffix |
| Php.TrimOfPadded | src/wp-conference-schedule.php:839 | trimming a word padded with strippable characters gives the word back |
| Php.ImplodeExplode | src/inc/schedule-output-functions.php:430 | joining the pieces of `explode` with the delimiter gives the string back |
| Php.ExplodeImplode | src/wp-conference-schedule.php:520 | splitting a delimiter-free join gives the parts back |
| Php.PadTwoRoundTrip | src/inc/schedule-output-functions.php:236 | `intval` of the two-digit hour string is the hour |
| Php.PadTwoInjective | src/inc/schedule-output-functions.php:236 | different hours give different two-digit strings |
| Php.Dedup | src/wp-conference-schedule.php:721-724 | `array_unique` keeps exactly the input's values, without duplicates and no longer than the input |
| Php.DedupOfDistinct | src/wp-conference-schedule.php:721-724 | a list without duplicates is unchanged |
| OrderedArray.PutSpec | src/wp-conference-schedule.php:459 | `$a[$k] = $v` sets `k` to `v`, keeps every other value, and keeps the key order, appending a new key |
| OrderedArray.UnionLookup | src/wp-conference-schedule.php:417 | `$a + $b` finds a key of `a` in `a` and any other key in `b` |
| OrderedArray.UnionUnique | src/wp-conference-schedule.php:417 | the union of arrays with unique keys has unique keys |

## Left out

- WordPress hooks, shortcode registration, `WP_Query`, `get_posts` and the meta reads. Post meta, terms, options and request parameters are inputs.
- The CMB2 metabox definitions, the admin UI and the script and style enqueueing. They are declarative configuration.
- The transient cache. A cached value is an input that short-circuits the page; setting it and its expiry time belong to an external store.
- `time()`, `strtotime`, `gmdate`, `date` and `human_time_diff`. The current time, hour and minute, the window bounds and the formatted strings are inputs.
- The `is_numeric` test on each speaker meta value. A speaker reference arrives already split into a speaker post ID or a free-text name.
- `sanitize_text_field`, `sanitize_title`, `sanitize_html_class`, `esc_url`, `esc_html`, `wp_kses_post`, `wp_trim_words` and `get_permalink`. They are function parameters or pre-computed fields of a session.
- The exact HTML bytes of the schedule fragments. A fragment is modelled by its observable parts: hidden flag, control state, wrapper, description, speakers and number label.
- `wpad_avatar`, which makes a blocking outbound HTTP request; `wp_redirect` and `exit`; `wpcs_get_video`, `wpcs_event_start` and the other template helpers.
- `wpcs_session_sponsors`: its HTML is an input field of the session.
- The speaker cards of lightning sub-talks. Only their talk list is modelled, because the model does not read the sub-talk posts.
- The `str_replace` calls that switch the control's `"false"` and `-plus` also touch the same text inside a session title. The control is modelled as a structure, so this side effect is not.
- The file-name suffix shown to administrators on resource links. It depends on `current_user_can` and `wp_parse_url`.
- The `start` attribute is an optional integer. A non-numeric string attribute, which PHP would coerce, is not modelled.
- The session query of `[wpcs_speakers]`, including the `tax_query` added for a non-empty track list. `track` is modelled up to the list that the query receives.
- The `posts_per_page`, `image_size`, `columns`, `gap` and `align` attributes of `[wpcs_speakers]` are passed to queries or markup unchanged.
- `Php.IntVal`: exponent and hexadecimal forms of numeric strings are not modelled; only leading decimal digits after whitespace and a sign.
- `Php.Dedup`: the contract states contents and absence of duplicates but not the first-occurrence order that `array_unique` keeps. The definition keeps first occurrences.
- `SlotWalk.EveryHourDrawnOnce` and `SlotWalk.WalkCoversDay`: their coverage half is stated for a start between 0 and 24. Other starts walk indices whose hours fall partly outside 0..23, and those indices find no session. The distinctness half holds for every start (`SlotWalk.PopulatedHoursDistinct`).
- `ScheduleRender.WalkFragments` and `ScheduleRender.WalkSummary`: stated for snapshots whose entries all carry a post ID, as the posts of the session query do. An entry with ID 0 consumes a number but draws nothing; `ScheduleRender.Walk` and `ScheduleRender.WalkCount` cover that case.
- `Attendees.LocationAgrees`: covers the inputs where the code's composition is right. It leaves out an empty city with a state, the first finding below, and an empty city and state with a country that holds ", ", the second finding.

## Findings

| source | as written | input that shows it | evidently intended | confidence | as-written member | corrected member |
|---|---|---|---|---|---|---|
| src/inc/schedule-output-functions.php:92-98 | the ", " separator after an empty city is removed only when city and state are both empty, so an empty city with a state keeps a leading ", " | city "", state "CA", country "" gives ", CA"; with country "US" it gives ", CA, US" | the non-empty parts joined by ", " | not executed | Attendees.LocationAsWritten / Attendees.LocationLeadingSeparator | Attendees.Location / Attendees.LocationStartsWithFirstPart |
| src/inc/schedule-output-functions.php:92-98 | when city and state are both empty, line 98 removes every ", " from the location, including those inside the country | city "", state "", country "A, B" gives "AB"; "Korea, Republic of" would show as "KoreaRepublic of" | the country shown unchanged | not executed | Attendees.LocationAsWritten / Attendees.LocationStripsCountrySeparators | Attendees.Location / Attendees.LocationOfCountryOnly |

=== FILE: attachments.dfy ===
/** `wpcs_ends_with`, `wpcs_get_slides` and `wpcs_get_resources`: classifying the slide and
    resource links of a session by their file extension. */
module Attachments {
  import opened Php

  /** `substr($s, -$n)` for `n > 0`: the last `n` characters, or the whole string when it is
      shorter. */
  function LastChars(s: string, n: nat): (r: string)
    ensures n <= |s| ==> r == s[|s| - n..]
    ensures n > |s| ==> r == s
  {
    if n <= |s| then s[|s| - n..] else s
  }

  /** `wpcs_ends_with($source, $ext)`. */
  predicate EndsWith(source: string, ext: string) {
    |ext| == 0 || LastChars(source, |ext|) == ext
  }

  /** `wpcs_ends_with` holds exactly when `ext` is a suffix of `source`; in particular it holds
      for the empty extension. */
  lemma EndsWithIsSuffix(source: string, ext: string)
    ensures EndsWith(source, ext) <==> |ext| <= |source| && source[|source| - |ext|..] == ext
  {
  }

  /** `wpcs_ends_with` agrees with appending: `s + ext` always ends with `ext`. */
  lemma EndsWithAppended(s: string, ext: string)
    ensures EndsWith(s + ext, ext)
  {
    assert (s + ext)[|s + ext| - |ext|..] == ext;
  }

  /** The extensions recognised as slide decks, in the order they are tried. */
  const SlideTypes: seq<string> := [".ppt", ".pptx", ".pdf", ".key", ".otp", ".pps", ".ppsx"]

  /** The extensions recognised as documents, in the order they are tried. */
  const ResourceTypes: seq<string> := [".doc", ".docx", ".xls", ".xlsx", ".pdf"]

  /** The value `$extension` holds after the inner loop: the first listed extension that
      ends `item`, or "url". */
  function Classify(item: string, types: seq<string>): (ext: string)
    ensures ext == "url" || ext in types
  {
    if |types| == 0 then "url"
    else if EndsWith(item, types[0]) then types[0]
    else Classify(item, types[1..])
  }

  /** Classification picks the first matching extension, and answers "url" exactly when none
      matches (for lists that do not themselves contain "url"). */
  lemma ClassifyFirstMatch(item: string, types: seq<string>)
    requires "url" !in types
    ensures Classify(item, types) == "url" <==> forall k :: 0 <= k < |types| ==> !EndsWith(item, types[k])
    ensures Classify(item, types) != "url" ==>
              exists k :: 0 <= k < |types| && types[k] == Classify(item, types)
                          && EndsWith(item, types[k])
                          && forall j :: 0 <= j < k ==> !EndsWith(item, types[j])
  {
    ClassifyNoMatch(item, types);
    if Classify(item, types) != "url" {
      var k := ClassifyMatch(item, types);
    }
  }

  /** "url" is the answer exactly when no listed extension ends the item. */
  lemma {:induction false} ClassifyNoMatch(item: string, types: seq<string>)
    requires "url" !in types
    ensures Classify(item, types) == "url" <==> forall k :: 0 <= k < |types| ==> !EndsWith(item, types[k])
  {
    if |types| > 0 && !EndsWith(item, types[0]) {
      var rest := types[1..];
      assert "url" !in rest;
      ClassifyNoMatch(item, rest);
      assert Classify(item, types) == Classify(item, rest);
      if Classify(item, rest) == "url" {
        forall k | 0 <= k < |types| ensures !EndsWith(item, types[k]) {
          if k > 0 { assert types[k] == rest[k - 1]; }
        }
      } else {
        var k :| 0 <= k < |rest| && EndsWith(item, rest[k]);
        assert types[k + 1] == rest[k];
      }
    }
  }

  /** A non-"url" answer is the extension at the first matching position `k`. */
  lemma {:induction false} ClassifyMatch(item: string, types: seq<string>) returns (k: nat)
    requires Classify(item, types) != "url"
    ensures k < |types| && types[k] == Classify(item, types) && EndsWith(item, types[k])
    ensures forall j :: 0 <= j < k ==> !EndsWith(item, types[j])
  {
    if EndsWith(item, types[0]) {
      k := 0;
    } else {
      var rest := types[1..];
      assert Classify(item, types) == Classify(item, rest);
      var k' := ClassifyMatch(item, rest);
      k := k' + 1;
      assert types[k] == rest[k'];
      forall j | 0 <= j < k ensures !EndsWith(item, types[j]) {
        if j > 0 { assert types[j] == rest[j - 1]; }
      }
    }
  }

  /** `sanitize_title` of a listed extension: the letters after the dot. */
  function ExtensionClass(ext: string): string {
    if |ext| > 0 && ext[0] == '.' then ext[1..] else ext
  }

  /** One entry of the list: a typed file link with its CSS class and text, a plain URL link,
      or the empty string when `esc_url` rejects the URL. */
  datatype Link = FileLink(href: string, cssClass: string, text: string) | UrlLink(href: string, text: string) | NoLink

  /** The post meta as read: an array of URLs, or some other value. */
  datatype MetaValue = Items(urls: seq<string>) | Scalar(raw: string)

  /** The entry for one item, with `kind` "Slides" or "Session Resource" and `escUrl` standing
      for `esc_url`. */
  function LinkFor(item: string, types: seq<string>, kind: string, escUrl: string -> string): (l: Link)
    ensures l.FileLink? <==> Classify(item, types) != "url"
    ensures l.FileLink? ==>
              l.href == escUrl(item) && l.cssClass == ExtensionClass(Classify(item, types))
              && l.text == kind + " (" + Upper(l.cssClass) + ")"
    ensures l.UrlLink? ==> l.href == escUrl(item) && Truthy(l.href) && l.text == kind + " (URL)"
    ensures l.NoLink? <==> Classify(item, types) == "url" && !Truthy(escUrl(item))
  {
    var ext := Classify(item, types);
    if ext != "url" then
      var cls := ExtensionClass(ext);
      FileLink(escUrl(item), cls, kind + " (" + Upper(cls) + ")")
    else if Truthy(escUrl(item)) then UrlLink(escUrl(item), kind + " (URL)")
    else NoLink
  }

  /** The list for a meta value: one entry per item, in item order; nothing for a non-array. */
  function Links(meta: MetaValue, types: seq<string>, kind: string, escUrl: string -> string): (r: seq<Link>)
    ensures meta.Scalar? ==> r == []
    ensures meta.Items? ==> |r| == |meta.urls|
    ensures meta.Items? ==> forall k :: 0 <= k < |r| ==> r[k] == LinkFor(meta.urls[k], types, kind, escUrl)
  {
    match meta
    case Scalar(_) => []
    case Items(urls) => seq(|urls|, k requires 0 <= k < |urls| => LinkFor(urls[k], types, kind, escUrl))
  }

  /** `wpcs_get_slides`. */
  function GetSlides(meta: MetaValue, escUrl: string -> string): seq<Link> {
    Links(meta, SlideTypes, "Slides", escUrl)
  }

  /** `wpcs_get_resources`, without the file-name suffix shown to administrators. */
  function GetResources(meta: MetaValue, escUrl: string -> string): seq<Link> {
    Links(meta, ResourceTypes, "Session Resource", escUrl)
  }

  /** Two non-empty extensions that both end a string end in the same character. */
  lemma SameLastChar(s: string, a: string, b: string)
    requires |a| > 0 && |b| > 0 && EndsWith(s, a) && EndsWith(s, b)
    ensures a[|a| - 1] == b[|b| - 1]
  {
    EndsWithIsSuffix(s, a);
    EndsWithIsSuffix(s, b);
    assert a[|a| - 1] == s[|s| - 1];
  }

  /** An item ending in `.pdf` matches none of the document extensions tried before it. */
  lemma ClassifyPdf(item: string)
    requires EndsWith(item, ".pdf")
    ensures Classify(item, ResourceTypes) == ".pdf"
  {
    var rt := ResourceTypes;
    forall j | 0 <= j < 4 ensures !EndsWith(item, rt[j]) {
      if EndsWith(item, rt[j]) { SameLastChar(item, rt[j], ".pdf"); }
    }
    assert EndsWith(item, rt[4]);
    ClassifyFirstMatch(item, rt);
    var k :| 0 <= k < |rt| && rt[k] == Classify(item, rt) && EndsWith(item, rt[k])
             && forall j :: 0 <= j < k ==> !EndsWith(item, rt[j]);
    assert k == 4;
  }

  /** A resource item ending in `.pdf` gets the "Session Resource (PDF)" file link. */
  lemma PdfResource(urls: seq<string>, escUrl: string -> string, k: int)
    requires 0 <= k < |urls|
    requires EndsWith(urls[k], ".pdf")
    ensures GetResources(Items(urls), escUrl)[k] == FileLink(escUrl(urls[k]), "pdf", "Session Resource (PDF)")
  {
    ClassifyPdf(urls[k]);
    var l := LinkFor(urls[k], ResourceTypes, "Session Resource", escUrl);
    assert GetResources(Items(urls), escUrl)[k] == l;
    assert ExtensionClass(".pdf") == "pdf";
    assert Upper("pdf") == "PDF";
    assert l.FileLink? && l.cssClass == "pdf";
  }
}

=== FILE: attendees.dfy ===
/** The location and employment lines of an attendee card in `wpcs_shortcode_people`. */
module Attendees {
  import opened Php

  /** The separator the location parts are joined with. */
  const Separator: string := ", "

  /** The location exactly as the shortcode composes it: city and state (one of them when
      they are equal), then the country; when the city/state part is empty, every ", " is
      removed from the result. */
  function LocationAsWritten(city: string, state: string, country: string): string {
    var loc := if city == state then city else if state == "" then city else city + Separator + state;
    var location := if country == "" then loc else loc + Separator + country;
    if loc == "" then StrReplace(location, Separator, "") else location
  }

  /** With an empty city and a non-empty state, the location starts with a stray separator. */
  lemma LocationLeadingSeparator()
    ensures LocationAsWritten("", "CA", "") == ", CA"
    ensures LocationAsWritten("", "CA", "US") == ", CA, US"
  {
  }

  /** With an empty city and state, every ", " is removed from the country as well. */
  lemma LocationStripsCountrySeparators()
    ensures LocationAsWritten("", "", "A, B") == "AB"
  {
    assert Separator + "A, B" == ", A, B";
    StrReplaceLeading(Separator, "A, B", "");
    assert "A, B"[..2] != Separator && "A, B"[1..] == Separator + "B";
    StrReplaceLeading(Separator, "B", "");
  }

  /** The non-empty parts of a location, a state equal to the city counted once. */
  function LocationParts(city: string, state: string, country: string): (parts: seq<string>)
    ensures forall k :: 0 <= k < |parts| ==> parts[k] != ""
    ensures |parts| == 0 <==> city == "" && state == "" && country == ""
  {
    (if city != "" then [city] else [])
      + (if state != "" && state != city then [state] else [])
      + (if country != "" then [country] else [])
  }

  /** The location as evidently intended: the non-empty parts joined by ", ". */
  function Location(city: string, state: string, country: string): string {
    Implode(Separator, LocationParts(city, state, country))
  }

  /** The intended location is empty only when every part is, and otherwise starts with the
      first non-empty part, never with a separator. */
  lemma LocationStartsWithFirstPart(city: string, state: string, country: string)
    ensures Location(city, state, country) == "" <==> city == "" && state == "" && country == ""
    ensures var parts := LocationParts(city, state, country);
            |parts| > 0 ==>
              |Location(city, state, country)| >= |parts[0]|
              && Location(city, state, country)[..|parts[0]|] == parts[0]
    ensures city == "" && state != "" ==>
              |Location(city, state, country)| >= |state|
              && Location(city, state, country)[..|state|] == state
  {
    var parts := LocationParts(city, state, country);
    if |parts| > 0 {
      ImplodeHead(Separator, parts);
    }
  }

  /** The intended location of a country alone is that country, separators and all. */
  lemma LocationOfCountryOnly(country: string)
    ensures Location("", "", country) == country
  {
  }

  /** The composition as written and as intended agree whenever a city is given, and when
      only a country is given that holds no ", ". */
  lemma {:induction false} LocationAgrees(city: string, state: string, country: string)
    requires city != "" || (state == "" && !Contains(country, Separator))
    ensures LocationAsWritten(city, state, country) == Location(city, state, country)
  {
    if city == "" {
      if country != "" {
        StrReplaceLeading(Separator, country, "");
        StrReplaceAbsent(country, Separator, "");
        assert Separator + country == "" + Separator + country;
      }
    } else {
      var parts := LocationParts(city, state, country);
      if |parts| == 3 {
        assert parts == [city, state, country];
        assert Implode(Separator, [state, country]) == state + Separator + country;
        assert Implode(Separator, parts) == city + Separator + (state + Separator + country);
      } else if |parts| == 2 {
        assert Implode(Separator, parts) == parts[0] + Separator + parts[1];
      }
    }
  }

  /** The employment line: job title and company when both are truthy, the company alone
      when only it is, nothing otherwise. */
  function Employment(company: string, jobTitle: string): (line: string)
    ensures Truthy(line) <==> Truthy(company)
    ensures Truthy(company) && !Truthy(jobTitle) ==> line == company
  {
    var c := if Truthy(company) || Truthy(jobTitle) then
               var c0 := if Truthy(company) then company else "";
               if Truthy(jobTitle) && Truthy(c0) then jobTitle + Separator + c0 else c0
             else company;
    if Truthy(c) then c else ""
  }

  /** A job title without a company is not shown; with one, it precedes the company. */
  lemma EmploymentJobTitle(company: string, jobTitle: string)
    ensures !Truthy(company) ==> Employment(company, jobTitle) == ""
    ensures Truthy(company) && Truthy(jobTitle) ==>
              var line := Employment(company, jobTitle);
              line == jobTitle + Separator + company
              && |line| == |jobTitle| + 2 + |company|
              && line[..|jobTitle|] == jobTitle
              && line[|line| - |company|..] == company
  {
    if Truthy(company) && Truthy(jobTitle) {
      var line := jobTitle + Separator + company;
      assert line[..|jobTitle|] == jobTitle;
      assert line[|line| - |company|..] == company;
    }
  }

  /** What an attendee card shows besides name, avatar and social links. */
  datatype Details = Details(employment: string, location: string)

  /** The detail lines of one attendee as the shortcode composes them; a falsy line is not
      rendered. */
  function AttendeeDetails(city: string, state: string, country: string, company: string, jobTitle: string): (d: Details)
    ensures city == "" && state == "" && country == "" ==> d.location == ""
    ensures d.location == "" <==> !Truthy(LocationAsWritten(city, state, country))
    ensures d.location != "" ==> d.location == LocationAsWritten(city, state, country)
    ensures d.employment == "" <==> !Truthy(company)
  {
    var location := LocationAsWritten(city, state, country);
    Details(Employment(company, jobTitle), if Truthy(location) then location else "")
  }

  /** Where the composition as written is right, the card shows the intended location, unless
      that location is the falsy "0". */
  lemma AttendeeLocationIntended(city: string, state: string, country: string, company: string, jobTitle: string)
    requires city != "" || (state == "" && !Contains(country, Separator))
    ensures var l := Location(city, state, country);
            AttendeeDetails(city, state, country, company, jobTitle).location == if Truthy(l) then l else ""
  {
    LocationAgrees(city, state, country);
  }
}

=== FILE: clock_rule.dfy ===
/** The per-slot clock rule of `wpcs_schedule`: the status label, the "next" flag and
    the "current" flag of one populated hour, from the wall clock and the event window. */
module ClockRule {
  import opened Wrappers
  import opened Php
  import opened SlotWalk

  type Minute = m: int | 0 <= m < 60

  /** The wall clock as the loop reads it: `time()`, `date('H')` and `date('i')` as numbers. */
  datatype Clock = Clock(now: int, hour: Hour, minute: Minute)

  /** The event window: `strtotime` of the `wpad_start_time` and `wpad_end_time` options. */
  datatype Window = Window(begin: int, end: int)

  const HourInSeconds: int := 3600
  /** From this minute on, the rule looks ahead to the next talk. */
  const CutoffMinute: int := 50

  /** The value of `$text`: one of two strings, PHP `false`, or the empty string. */
  datatype Label = NowSpeaking | UpNext | Suppressed | NoLabel

  /** `$text` as PHP holds it; `None` is `false`. */
  function LabelText(l: Label): (t: Option<string>)
    ensures t.None? <==> l == Suppressed
    ensures t == Some("") <==> l == NoLabel
  {
    match l
    case NowSpeaking => Some("Now speaking: ")
    case UpNext => Some("Up next: ")
    case Suppressed => None
    case NoLabel => Some("")
  }

  /** What the rule decides for one populated hour. */
  datatype SlotState = SlotState(status: Label, isNext: bool, clockCurrent: bool)

  /** A PHP scalar, for the strict comparisons of the rule. */
  datatype Scalar = Str(s: string) | Int(i: int)

  /** `$a === $b`: same type and same value. */
  predicate StrictEquals(a: Scalar, b: Scalar) {
    a == b
  }

  /** The current-slot test as written: `(begin < now < end) && date('H') === $time &&
      minute < 50 || date('G') === (int) $time - 1 && minute > 50`. The second disjunct
      compares the string `date('G')` with an integer. */
  predicate ClockCurrentAsWritten(w: Window, c: Clock, base: Hour) {
    || ((w.begin < c.now && c.now < w.end)
        && StrictEquals(Str(PadTwo(c.hour)), Str(PadTwo(base)))
        && c.minute < CutoffMinute)
    || (StrictEquals(Str(NatToString(c.hour)), Int(base - 1)) && c.minute > CutoffMinute)
  }

  /** The string-to-integer `===` never holds, so a slot is current by the clock exactly when
      the event has begun and not ended, its hour is the current hour, and the minute is below 50. */
  lemma ClockCurrentSimplified(w: Window, c: Clock, base: Hour)
    ensures ClockCurrentAsWritten(w, c, base)
            <==> w.begin < c.now < w.end && c.hour == base && c.minute < CutoffMinute
  {
    if PadTwo(c.hour) == PadTwo(base) {
      PadTwoInjective(c.hour, base);
    }
  }

  /** The rule for one populated hour `base`. */
  function Resolve(w: Window, c: Clock, base: Hour): (st: SlotState)
    ensures st.isNext <==> st.status == UpNext || st.status == Suppressed
    ensures st.status == NowSpeaking
            <==> w.begin - HourInSeconds < c.now < w.end && c.minute < CutoffMinute
    ensures st.status == UpNext
            <==> w.begin - HourInSeconds < c.now < w.end && c.minute >= CutoffMinute
    ensures st.status == Suppressed
            <==> !(w.begin - HourInSeconds < c.now < w.end) && c.now <= w.end
    ensures st.status == NoLabel <==> c.now > w.end
    ensures st.clockCurrent
            <==> w.begin < c.now < w.end && c.hour == base && c.minute < CutoffMinute
    ensures st.clockCurrent ==> st.status == NowSpeaking
  {
    if c.now > w.begin - HourInSeconds && c.now < w.end then
      ClockCurrentSimplified(w, c, base);
      var current := ClockCurrentAsWritten(w, c, base);
      if c.minute < CutoffMinute then SlotState(NowSpeaking, false, current)
      else SlotState(UpNext, true, current)
    else if !(c.now > w.end) then
      SlotState(Suppressed, true, false)
    else
      SlotState(NoLabel, false, false)
  }

  /** `$is_current || ($is_first && $is_next)`: the flag handed to the session formatter.
      Outside the window (and at the very second it ends) only the first loop index is
      current; after the end none is;
      inside the window the first loop index is promoted whenever the minute is 50 or more. */
  function SlotCurrent(w: Window, c: Clock, base: Hour, isFirst: bool): (cur: bool)
    ensures !(w.begin - HourInSeconds < c.now < w.end) && c.now <= w.end ==> (cur <==> isFirst)
    ensures c.now > w.end ==> !cur
    ensures w.begin - HourInSeconds < c.now < w.end && c.minute < CutoffMinute
            ==> (cur <==> w.begin < c.now && c.hour == base)
    ensures w.begin - HourInSeconds < c.now < w.end && c.minute >= CutoffMinute
            ==> (cur <==> isFirst)
    ensures cur && !isFirst ==> c.hour == base
  {
    var st := Resolve(w, c, base);
    st.clockCurrent || (isFirst && st.isNext)
  }
}

=== FILE: ordered_array.dfy ===
/** PHP's ordered arrays with keys: a sequence of key/value entries in insertion order.
    Only the operations the plugin uses are modelled: lookup, `$a[$k] = $v`,
    `array_slice(..., true)` and the `+` union operator. */
module OrderedArray {
  import opened Wrappers

  // Keys are strings: every array the modelled code builds is keyed by strings.

  /** The keys of `a`, in order. */
  function KeysOf<V>(a: seq<(string, V)>): (ks: seq<string>)
    ensures |ks| == |a|
    ensures forall i :: 0 <= i < |a| ==> ks[i] == a[i].0
  {
    if |a| == 0 then [] else [a[0].0] + KeysOf(a[1..])
  }

  /** No key appears twice: the shape every PHP array has. */
  predicate UniqueKeys<V>(a: seq<(string, V)>) {
    forall i, j :: 0 <= i < j < |a| ==> a[i].0 != a[j].0
  }

  predicate HasKey<V>(a: seq<(string, V)>, k: string) {
    exists i :: 0 <= i < |a| && a[i].0 == k
  }

  /** `$a[$k] ?? null`: the value of the first entry with key `k`. */
  function Lookup<V>(a: seq<(string, V)>, k: string): (r: Option<V>)
    ensures r.Some? <==> HasKey(a, k)
  {
    if |a| == 0 then None
    else if a[0].0 == k then Some(a[0].1)
    else
      HasKeyTail(a, k);
      Lookup(a[1..], k)
  }

  /** In an array with unique keys, the entry at `i` is what lookup finds for its key. */
  lemma {:induction false} LookupAt<V>(a: seq<(string, V)>, i: int)
    requires UniqueKeys(a)
    requires 0 <= i < |a|
    ensures Lookup(a, a[i].0) == Some(a[i].1)
  {
    if i > 0 {
      assert a[0].0 != a[i].0;
      assert a[1..][i - 1] == a[i];
      LookupAt(a[1..], i - 1);
    }
  }

  /** `$a[$k] = $v`: overwrites the value in place when `k` is present, appends otherwise. */
  function Put<V>(a: seq<(string, V)>, k: string, v: V): seq<(string, V)> {
    if |a| == 0 then [(k, v)]
    else if a[0].0 == k then [(k, v)] + a[1..]
    else [a[0]] + Put(a[1..], k, v)
  }

  lemma HasKeyTail<V>(a: seq<(string, V)>, k: string)
    requires |a| > 0 && a[0].0 != k
    ensures HasKey(a, k) <==> HasKey(a[1..], k)
  {
    if HasKey(a, k) {
      var i :| 0 <= i < |a| && a[i].0 == k;
      assert a[1..][i - 1].0 == k;
    }
    if HasKey(a[1..], k) {
      var i :| 0 <= i < |a[1..]| && a[1..][i].0 == k;
      assert a[i + 1].0 == k;
    }
  }

  /** After `$a[$k] = $v`, `k` holds `v`, every other key keeps its value, and the key
      order is unchanged except that a new key goes last. */
  lemma PutSpec<V>(a: seq<(string, V)>, k: string, v: V)
    ensures HasKey(a, k) ==> KeysOf(Put(a, k, v)) == KeysOf(a)
    ensures !HasKey(a, k) ==> KeysOf(Put(a, k, v)) == KeysOf(a) + [k]
    ensures Lookup(Put(a, k, v), k) == Some(v)
    ensures forall k' :: k' != k ==> Lookup(Put(a, k, v), k') == Lookup(a, k')
  {
    PutKeys(a, k, v);
    PutLookup(a, k, v, k);
    forall k' | k' != k ensures Lookup(Put(a, k, v), k') == Lookup(a, k') {
      PutLookup(a, k, v, k');
    }
  }

  /** `$a[$k] = $v` keeps the key order, appending a new key. */
  lemma {:induction false} PutKeys<V>(a: seq<(string, V)>, k: string, v: V)
    ensures HasKey(a, k) ==> KeysOf(Put(a, k, v)) == KeysOf(a)
    ensures !HasKey(a, k) ==> KeysOf(Put(a, k, v)) == KeysOf(a) + [k]
  {
    if |a| == 0 {
      assert KeysOf([(k, v)]) == [k];
    } else if a[0].0 == k {
      assert HasKey(a, k);
      var r := [(k, v)] + a[1..];
      assert KeysOf(r) == [k] + KeysOf(a[1..]);
      assert KeysOf(a) == [k] + KeysOf(a[1..]);
    } else {
      PutKeys(a[1..], k, v);
      HasKeyTail(a, k);
      var rest := Put(a[1..], k, v);
      var r := [a[0]] + rest;
      assert r[1..] == rest;
      assert KeysOf(r) == [a[0].0] + KeysOf(rest);
      assert KeysOf(a) == [a[0].0] + KeysOf(a[1..]);
    }
  }

  /** After `$a[$k] = $v`, looking up `k` gives `v` and any other key its old value. */
  lemma {:induction false} PutLookup<V>(a: seq<(string, V)>, k: string, v: V, k': string)
    ensures Lookup(Put(a, k, v), k') == if k' == k then Some(v) else Lookup(a, k')
  {
    if |a| > 0 && a[0].0 != k {
      PutLookup(a[1..], k, v, k');
      var r := [a[0]] + Put(a[1..], k, v);
      assert r[1..] == Put(a[1..], k, v);
    } else if |a| > 0 {
      var r := [(k, v)] + a[1..];
      assert r[1..] == a[1..];
    }
  }

  /** `array_slice($a, $offset, $length, true)`, with `None` for a null length. */
  function Slice<V>(a: seq<(string, V)>, offset: nat, length: Option<nat>): (r: seq<(string, V)>)
    ensures offset >= |a| ==> r == []
    ensures offset < |a| && length.None? ==> r == a[offset..]
    ensures offset < |a| && length.Some? ==> r == a[offset..if offset + length.value <= |a| then offset + length.value else |a|]
  {
    if offset >= |a| then []
    else match length
      case None => a[offset..]
      case Some(n) => a[offset..if offset + n <= |a| then offset + n else |a|]
  }

  /** The entries of `b` whose key is not a key of `a`, in order. */
  function Missing<V>(a: seq<(string, V)>, b: seq<(string, V)>): (r: seq<(string, V)>)
    ensures forall i :: 0 <= i < |r| ==> !HasKey(a, r[i].0)
  {
    if |b| == 0 then []
    else if HasKey(a, b[0].0) then Missing(a, b[1..])
    else [b[0]] + Missing(a, b[1..])
  }

  /** `$a + $b`: the entries of `a`, then those of `b` whose key `a` lacks. */
  function Union<V>(a: seq<(string, V)>, b: seq<(string, V)>): seq<(string, V)> {
    a + Missing(a, b)
  }

  /** Lookup in `a + b`: the left operand wins on a shared key. */
  lemma UnionLookup<V>(a: seq<(string, V)>, b: seq<(string, V)>, k: string)
    ensures Lookup(Union(a, b), k) == if HasKey(a, k) then Lookup(a, k) else Lookup(b, k)
  {
    LookupAppend(a, Missing(a, b), k);
    if !HasKey(a, k) {
      MissingLookup(a, b, k);
    }
  }

  lemma {:induction false} LookupAppend<V>(a: seq<(string, V)>, c: seq<(string, V)>, k: string)
    ensures Lookup(a + c, k) == if HasKey(a, k) then Lookup(a, k) else Lookup(c, k)
  {
    if |a| > 0 {
      assert (a + c)[0] == a[0];
      assert (a + c)[1..] == a[1..] + c;
      LookupAppend(a[1..], c, k);
      if a[0].0 != k {
        HasKeyTail(a, k);
      }
    } else {
      assert a + c == c;
    }
  }

  lemma {:induction false} MissingLookup<V>(a: seq<(string, V)>, b: seq<(string, V)>, k: string)
    requires !HasKey(a, k)
    ensures Lookup(Missing(a, b), k) == Lookup(b, k)
  {
    if |b| > 0 {
      MissingLookup(a, b[1..], k);
      if HasKey(a, b[0].0) {
        assert b[0].0 != k;
      }
    }
  }

  /** `a + b` of two arrays with unique keys has unique keys. */
  lemma UnionUnique<V>(a: seq<(string, V)>, b: seq<(string, V)>)
    requires UniqueKeys(a) && UniqueKeys(b)
    ensures UniqueKeys(Union(a, b))
  {
    var m := Missing(a, b);
    MissingUnique(a, b);
    var u := a + m;
    forall i, j | 0 <= i < j < |u| ensures u[i].0 != u[j].0 {
      if j >= |a| && i < |a| {
        assert !HasKey(a, m[j - |a|].0);
        assert u[j] == m[j - |a|];
      }
    }
  }

  lemma {:induction false} MissingUnique<V>(a: seq<(string, V)>, b: seq<(string, V)>)
    requires UniqueKeys(b)
    ensures UniqueKeys(Missing(a, b))
    ensures forall i :: 0 <= i < |Missing(a, b)| ==> HasKey(b, Missing(a, b)[i].0)
  {
    if |b| > 0 {
      var tail := b[1..];
      assert UniqueKeys(tail);
      MissingUnique(a, tail);
      var mt := Missing(a, tail);
      forall i | 0 <= i < |mt| ensures HasKey(b, mt[i].0) && mt[i].0 != b[0].0 {
        assert HasKey(tail, mt[i].0);
        var j :| 0 <= j < |tail| && tail[j].0 == mt[i].0;
        assert b[j + 1].0 == mt[i].0;
      }
      if !HasKey(a, b[0].0) {
        var m := [b[0]] + mt;
        assert m[1..] == mt;
        forall i | 0 <= i < |m| ensures HasKey(b, m[i].0) {
          if i == 0 { assert b[0].0 == m[i].0; }
        }
      }
    }
  }

  /** The keys of `a` other than `k`, in order. */
  function KeysWithout<V>(a: seq<(string, V)>, k: string): (ks: seq<string>)
    ensures forall i :: 0 <= i < |ks| ==> ks[i] != k
  {
    if |a| == 0 then []
    else if a[0].0 == k then KeysWithout(a[1..], k)
    else [a[0].0] + KeysWithout(a[1..], k)
  }

  lemma {:induction false} KeysWithoutAppend<V>(a: seq<(string, V)>, c: seq<(string, V)>, k: string)
    ensures KeysWithout(a + c, k) == KeysWithout(a, k) + KeysWithout(c, k)
  {
    if |a| > 0 {
      assert (a + c)[0] == a[0];
      assert (a + c)[1..] == a[1..] + c;
      KeysWithoutAppend(a[1..], c, k);
    } else {
      assert a + c == c;
    }
  }
}

=== FILE: php.dfy ===
/** Models of the PHP built-ins whose exact behaviour the plugin's rules depend on:
    truthiness, `trim`, `strtolower`/`strtoupper`, `explode`/`implode`, `str_replace`,
    `intval`/`absint`, `str_pad` and `array_unique`. Strings are byte strings; the model
    uses `char` for a byte and only ASCII case mapping, as PHP 8 does. */
module Php {
  import opened Wrappers

  /** PHP truthiness of a string: only "" and "0" are falsy. */
  predicate Truthy(s: string) {
    s != "" && s != "0"
  }

  /** `empty($arr[$key])` for a value that may be unset. */
  predicate IsEmpty(v: Option<string>) {
    v.None? || !Truthy(v.value)
  }

  /** The optional value stored under `k`. */
  function Get<K, V>(m: map<K, V>, k: K): (r: Option<V>)
    ensures r.Some? <==> k in m
    ensures r.Some? ==> r.value == m[k]
  {
    if k in m then Some(m[k]) else None
  }

  // ---------------------------------------------------------------------------
  // Searching inside strings
  // ---------------------------------------------------------------------------

  /** `t` occurs in `s` starting at offset `k`. */
  predicate OccursAt(s: string, t: string, k: int) {
    0 <= k && k + |t| <= |s| && s[k..k + |t|] == t
  }

  /** `t` occurs somewhere in `s`. */
  ghost predicate Contains(s: string, t: string) {
    exists k :: OccursAt(s, t, k)
  }

  lemma ContainsShift(c: char, s: string, t: string)
    requires |t| > 0
    requires !Contains([c] + s, t)
    ensures !Contains(s, t)
  {
    forall k | OccursAt(s, t, k)
      ensures OccursAt([c] + s, t, k + 1)
    {
      assert ([c] + s)[k + 1..k + 1 + |t|] == s[k..k + |t|];
    }
  }

  // ---------------------------------------------------------------------------
  // trim
  // ---------------------------------------------------------------------------

  /** The characters PHP's `trim` strips by default: space, tab, LF, CR, NUL, VT. */
  predicate IsTrimmed(c: char) {
    c == ' ' || c == '\t' || c == '\n' || c == '\r' || c == '\0' || c == '\U{B}'
  }

  /** Every character of `s` is one `trim` strips. */
  predicate AllTrimmed(s: string) {
    forall k :: 0 <= k < |s| ==> IsTrimmed(s[k])
  }

  /** `ltrim($s)`: the suffix left after dropping the leading strippable characters. */
  function TrimStart(s: string): (r: string)
    ensures |r| <= |s| && r == s[|s| - |r|..]
    ensures |r| > 0 ==> !IsTrimmed(r[0])
  {
    if |s| > 0 && IsTrimmed(s[0]) then TrimStart(s[1..]) else s
  }

  /** `rtrim($s)`: the prefix left after dropping the trailing strippable characters. */
  function TrimEnd(s: string): (r: string)
    ensures |r| <= |s| && r == s[..|r|]
    ensures |r| > 0 ==> !IsTrimmed(r[|r| - 1])
  {
    if |s| > 0 && IsTrimmed(s[|s| - 1]) then TrimEnd(s[..|s| - 1]) else s
  }

  /** `trim($s)`: both ends stripped. */
  function Trim(s: string): (r: string)
    ensures |r| <= |s|
    ensures |r| > 0 ==> !IsTrimmed(r[0]) && !IsTrimmed(r[|r| - 1])
  {
    TrimEnd(TrimStart(s))
  }

  /** What `ltrim` drops is strippable. */
  lemma {:induction false} TrimStartDrops(s: string)
    ensures AllTrimmed(s[..|s| - |TrimStart(s)|])
    decreases |s|
  {
    if |s| > 0 && IsTrimmed(s[0]) {
      TrimStartDrops(s[1..]);
      var n := |s| - |TrimStart(s)|;
      forall k | 0 <= k < n ensures IsTrimmed(s[..n][k]) {
        if k > 0 { assert s[..n][k] == s[1..][..n - 1][k - 1]; }
      }
    }
  }

  /** What `rtrim` drops is strippable. */
  lemma {:induction false} TrimEndDrops(s: string)
    ensures AllTrimmed(s[|TrimEnd(s)|..])
    decreases |s|
  {
    if |s| > 0 && IsTrimmed(s[|s| - 1]) {
      var u := s[..|s| - 1];
      TrimEndDrops(u);
      var m := |TrimEnd(s)|;
      forall k | 0 <= k < |s| - m ensures IsTrimmed(s[m..][k]) {
        if m + k < |s| - 1 { assert s[m..][k] == u[m..][k]; }
      }
    }
  }

  /** `trim` keeps the infix of `s` between a strippable prefix and a strippable suffix. */
  lemma TrimIsInfix(s: string) returns (i: nat)
    ensures i + |Trim(s)| <= |s|
    ensures Trim(s) == s[i..i + |Trim(s)|]
    ensures AllTrimmed(s[..i]) && AllTrimmed(s[i + |Trim(s)|..])
  {
    var t := TrimStart(s);
    var r := TrimEnd(t);
    assert Trim(s) == r;
    i := |s| - |t|;
    TrimStartDrops(s);
    TrimEndDrops(t);
    InfixOfSuffix(s, t, r, i);
  }

  /** A prefix `r` of the suffix `t` of `s` starting at `i` is the infix of `s` at `i`. */
  lemma InfixOfSuffix(s: string, t: string, r: string, i: nat)
    requires i == |s| - |t|
    requires |t| <= |s| && t == s[i..] && AllTrimmed(s[..i])
    requires |r| <= |t| && r == t[..|r|] && AllTrimmed(t[|r|..])
    ensures i + |r| <= |s| && r == s[i..i + |r|] && AllTrimmed(s[i + |r|..])
  {
    assert t[|r|..] == s[i + |r|..];
  }

  /** Stripping a strippable prefix and suffix from a word that starts and ends with a kept
      character gives back the word. */
  lemma {:induction false} TrimOfPadded(a: string, v: string, b: string)
    requires AllTrimmed(a) && AllTrimmed(b)
    requires |v| > 0 && !IsTrimmed(v[0]) && !IsTrimmed(v[|v| - 1])
    ensures Trim(a + v + b) == v
  {
    assert a + v + b == a + (v + b);
    TrimStartOfPadded(a, v + b);
    TrimEndOfPadded(v, b);
  }

  lemma {:induction false} TrimStartOfPadded(a: string, w: string)
    requires AllTrimmed(a)
    requires |w| > 0 && !IsTrimmed(w[0])
    ensures TrimStart(a + w) == w
  {
    if |a| > 0 {
      assert (a + w)[1..] == a[1..] + w;
      TrimStartOfPadded(a[1..], w);
    } else {
      assert a + w == w;
    }
  }

  lemma {:induction false} TrimEndOfPadded(w: string, b: string)
    requires AllTrimmed(b)
    requires |w| > 0 && !IsTrimmed(w[|w| - 1])
    ensures TrimEnd(w + b) == w
  {
    if |b| > 0 {
      assert (w + b)[..|w + b| - 1] == w + b[..|b| - 1];
      TrimEndOfPadded(w, b[..|b| - 1]);
    } else {
      assert w + b == w;
    }
  }

  // ---------------------------------------------------------------------------
  // strtolower / strtoupper (ASCII only, as in PHP 8)
  // ---------------------------------------------------------------------------

  predicate IsUpper(c: char) { 'A' <= c <= 'Z' }
  predicate IsLower(c: char) { 'a' <= c <= 'z' }

  function LowerChar(c: char): (r: char)
    ensures !IsUpper(r)
    ensures IsUpper(c) ==> r as int == c as int + 32
    ensures !IsUpper(c) ==> r == c
  {
    if IsUpper(c) then (c as int + 32) as char else c
  }

  function UpperChar(c: char): (r: char)
    ensures !IsLower(r)
    ensures IsLower(c) ==> r as int == c as int - 32
    ensures !IsLower(c) ==> r == c
  {
    if IsLower(c) then (c as int - 32) as char else c
  }

  /** `strtolower($s)`: every ASCII capital replaced by its small letter, nothing else touched. */
  function Lower(s: string): (r: string)
    ensures |r| == |s|
    ensures forall k :: 0 <= k < |s| ==> r[k] == LowerChar(s[k])
  {
    if |s| == 0 then "" else [LowerChar(s[0])] + Lower(s[1..])
  }

  /** `strtoupper($s)`: every ASCII small letter replaced by its capital, nothing else touched. */
  function Upper(s: string): (r: string)
    ensures |r| == |s|
    ensures forall k :: 0 <= k < |s| ==> r[k] == UpperChar(s[k])
  {
    if |s| == 0 then "" else [UpperChar(s[0])] + Upper(s[1..])
  }

  // ---------------------------------------------------------------------------
  // explode / implode
  // ---------------------------------------------------------------------------

  /** `explode($d, $s)` for a one-character delimiter: the pieces between delimiters,
      at least one piece (`explode(',', '')` is `['']`), none containing the delimiter. */
  function Explode(d: char, s: string): (r: seq<string>)
    ensures |r| >= 1
    ensures forall k :: 0 <= k < |r| ==> d !in r[k]
    decreases |s|
  {
    if |s| == 0 then [""]
    else
      var rest := Explode(d, s[1..]);
      if s[0] == d then [""] + rest
      else [[s[0]] + rest[0]] + rest[1..]
  }

  /** `implode($sep, $parts)`: the parts in order with `sep` between neighbours. */
  function Implode(sep: string, parts: seq<string>): (r: string)
    ensures |parts| == 0 ==> r == ""
    ensures |parts| == 1 ==> r == parts[0]
    decreases |parts|
  {
    if |parts| == 0 then ""
    else if |parts| == 1 then parts[0]
    else parts[0] + sep + Implode(sep, parts[1..])
  }

  /** `implode` starts with its first part. */
  lemma ImplodeHead(sep: string, parts: seq<string>)
    requires |parts| >= 1
    ensures |Implode(sep, parts)| >= |parts[0]|
    ensures Implode(sep, parts)[..|parts[0]|] == parts[0]
  {
    if |parts| > 1 {
      assert Implode(sep, parts) == parts[0] + (sep + Implode(sep, parts[1..]));
    }
  }

  /** Joining the pieces of `explode` with the same delimiter gives back the string. */
  lemma {:induction false} ImplodeExplode(d: char, s: string)
    ensures Implode([d], Explode(d, s)) == s
    decreases |s|
  {
    if |s| > 0 {
      var rest := Explode(d, s[1..]);
      ImplodeExplode(d, s[1..]);
      assert Implode([d], rest) == s[1..];
      if s[0] == d {
        assert Explode(d, s) == [""] + rest;
        assert Implode([d], [""] + rest) == "" + [d] + Implode([d], rest);
        assert s == [s[0]] + s[1..];
      } else {
        var head := [s[0]] + rest[0];
        assert Explode(d, s) == [head] + rest[1..];
        ImplodeConsHead(d, s[0], rest);
        assert s == [s[0]] + s[1..];
      }
    }
  }

  lemma ImplodeConsHead(d: char, c: char, rest: seq<string>)
    requires |rest| >= 1
    ensures Implode([d], [[c] + rest[0]] + rest[1..]) == [c] + Implode([d], rest)
  {
    var parts := [[c] + rest[0]] + rest[1..];
    if |rest| == 1 {
      assert parts == [[c] + rest[0]];
    } else {
      var tail := Implode([d], rest[1..]);
      assert parts[0] == [c] + rest[0] && parts[1..] == rest[1..];
      assert Implode([d], parts) == ([c] + rest[0]) + [d] + tail;
      assert Implode([d], rest) == rest[0] + [d] + tail;
      ConsAssoc(c, rest[0], [d], tail);
    }
  }

  lemma ConsAssoc(c: char, a: string, b: string, e: string)
    ensures ([c] + a) + b + e == [c] + (a + b + e)
  {
  }

  /** Splitting a delimiter-free join gives back the parts. */
  lemma {:induction false} ExplodeImplode(d: char, parts: seq<string>)
    requires |parts| >= 1
    requires forall k :: 0 <= k < |parts| ==> d !in parts[k]
    ensures Explode(d, Implode([d], parts)) == parts
    decreases |parts|
  {
    if |parts| == 1 {
      ExplodeNoDelimiter(d, parts[0]);
    } else {
      ExplodeImplode(d, parts[1..]);
      ExplodeAfterPiece(d, parts[0], Implode([d], parts[1..]));
      assert Implode([d], parts) == parts[0] + ([d] + Implode([d], parts[1..]));
      assert parts == [parts[0]] + parts[1..];
    }
  }

  lemma {:induction false} ExplodeNoDelimiter(d: char, s: string)
    requires d !in s
    ensures Explode(d, s) == [s]
    decreases |s|
  {
    if |s| > 0 {
      assert d !in s[1..] by {
        forall k | 0 <= k < |s[1..]| ensures s[1..][k] != d { assert s[1..][k] == s[k + 1]; }
      }
      ExplodeNoDelimiter(d, s[1..]);
      assert s == [s[0]] + s[1..];
    }
  }

  lemma {:induction false} ExplodeAfterPiece(d: char, a: string, b: string)
    requires d !in a
    ensures Explode(d, a + ([d] + b)) == [a] + Explode(d, b)
    decreases |a|
  {
    if |a| == 0 {
      assert a + ([d] + b) == [d] + b;
      assert ([d] + b)[1..] == b;
    } else {
      var s := a + ([d] + b);
      assert s[1..] == a[1..] + ([d] + b);
      assert d !in a[1..] by {
        forall k | 0 <= k < |a[1..]| ensures a[1..][k] != d { assert a[1..][k] == a[k + 1]; }
      }
      ExplodeAfterPiece(d, a[1..], b);
      assert s[0] == a[0];
      assert [a[0]] + a[1..] == a;
    }
  }

  // ---------------------------------------------------------------------------
  // str_replace
  // ---------------------------------------------------------------------------

  /** `str_replace($from, $to, $s)`: left-to-right, non-overlapping replacement.
      An empty search string leaves the subject unchanged, as in PHP. */
  function StrReplace(s: string, from: string, to: string): string
    decreases |s|
  {
    if |from| == 0 || |s| < |from| then s
    else if s[..|from|] == from then to + StrReplace(s[|from|..], from, to)
    else [s[0]] + StrReplace(s[1..], from, to)
  }

  /** Replacing a string that does not occur changes nothing. */
  lemma {:induction false} StrReplaceAbsent(s: string, from: string, to: string)
    requires !Contains(s, from)
    ensures StrReplace(s, from, to) == s
    decreases |s|
  {
    if |from| > 0 && |s| >= |from| {
      assert !OccursAt(s, from, 0);
      assert s[..|from|] != from;
      assert [s[0]] + s[1..] == s;
      ContainsShift(s[0], s[1..], from);
      StrReplaceAbsent(s[1..], from, to);
    }
  }

  /** A leading occurrence is replaced and the rest is processed on its own. */
  lemma StrReplaceLeading(from: string, s: string, to: string)
    requires |from| > 0
    ensures StrReplace(from + s, from, to) == to + StrReplace(s, from, to)
  {
    assert (from + s)[..|from|] == from;
    assert (from + s)[|from|..] == s;
  }

  // ---------------------------------------------------------------------------
  // Decimal numbers: intval / absint / str_pad
  // ---------------------------------------------------------------------------

  predicate IsDigit(c: char) { '0' <= c <= '9' }

  predicate AllDigits(s: string) {
    forall k :: 0 <= k < |s| ==> IsDigit(s[k])
  }

  function DigitValue(c: char): (r: nat)
    requires IsDigit(c)
    ensures r < 10
  {
    c as int - '0' as int
  }

  function Digit(n: nat): (c: char)
    requires n < 10
    ensures IsDigit(c) && DigitValue(c) == n
  {
    ('0' as int + n) as char
  }

  /** The value of a string of decimal digits, most significant first. */
  function DigitsValue(s: string): nat
    requires AllDigits(s)
  {
    if |s| == 0 then 0 else DigitsValue(s[..|s| - 1]) * 10 + DigitValue(s[|s| - 1])
  }

  /** The longest all-digit prefix of `s`. */
  function LeadingDigits(s: string): (r: string)
    ensures |r| <= |s| && r == s[..|r|]
    ensures AllDigits(r)
    ensures |r| < |s| ==> !IsDigit(s[|r|])
  {
    if |s| > 0 && IsDigit(s[0]) then
      var rest := LeadingDigits(s[1..]);
      assert [s[0]] + rest == s[..1 + |rest|];
      [s[0]] + rest
    else ""
  }

  /** The whitespace PHP skips before a number: space, tab, LF, CR, VT, FF. */
  predicate IsNumberSpace(c: char) {
    c == ' ' || c == '\t' || c == '\n' || c == '\r' || c == '\U{B}' || c == '\U{C}'
  }

  function SkipNumberSpace(s: string): (r: string)
    ensures |r| <= |s| && r == s[|s| - |r|..]
    ensures |r| > 0 ==> !IsNumberSpace(r[0])
  {
    if |s| > 0 && IsNumberSpace(s[0]) then SkipNumberSpace(s[1..]) else s
  }

  /** `(int) $s` for a decimal string: leading whitespace, an optional sign, then the
      longest run of digits; 0 when there are none. */
  function IntVal(s: string): int {
    var t := SkipNumberSpace(s);
    if |t| > 0 && (t[0] == '-' || t[0] == '+') then
      var magnitude: int := DigitsValue(LeadingDigits(t[1..]));
      if t[0] == '-' then -magnitude else magnitude
    else DigitsValue(LeadingDigits(t))
  }

  /** `absint($v)` for a value that may be unset (`absint(null)` is 0). */
  function AbsInt(v: Option<string>): (r: nat)
    ensures v.None? ==> r == 0
  {
    match v
    case None => 0
    case Some(s) => var i := IntVal(s); if i < 0 then -i else i
  }

  /** Decimal rendering of a natural number, with no leading zero. */
  function NatToString(n: nat): (r: string)
    ensures |r| >= 1 && AllDigits(r)
    ensures DigitsValue(r) == n
    ensures r[0] == '0' ==> n == 0
    ensures n < 10 ==> |r| == 1
    ensures n < 100 ==> |r| <= 2
  {
    if n < 10 then [Digit(n)]
    else
      var p := NatToString(n / 10);
      var r := p + [Digit(n % 10)];
      assert r[..|r| - 1] == p;
      r
  }

  /** `str_pad($s, $width, $c, STR_PAD_LEFT)`. */
  function StrPadLeft(s: string, width: nat, c: char): (r: string)
    ensures |r| == if |s| >= width then |s| else width
    ensures r[|r| - |s|..] == s
    ensures forall k :: 0 <= k < |r| - |s| ==> r[k] == c
  {
    if |s| >= width then s else seq(width - |s|, _ => c) + s
  }

  /** `str_pad($n, 2, '0', STR_PAD_LEFT)`: the two-digit form used for hours and counters. */
  function PadTwo(n: nat): (r: string)
    ensures |r| >= 2 && AllDigits(r)
    ensures n < 100 ==> |r| == 2
  {
    ZeroPaddedDigits(NatToString(n), 2);
    StrPadLeft(NatToString(n), 2, '0')
  }

  /** Padding a digit string with zeros keeps it a digit string. */
  lemma ZeroPaddedDigits(digits: string, width: nat)
    requires AllDigits(digits)
    ensures AllDigits(StrPadLeft(digits, width, '0'))
  {
    var r := StrPadLeft(digits, width, '0');
    forall k | 0 <= k < |r| ensures IsDigit(r[k]) {
      if k >= |r| - |digits| { assert r[k] == r[|r| - |digits|..][k - (|r| - |digits|)]; }
    }
  }

  /** Leading zeros do not change the value of a digit string. */
  lemma {:induction false} DigitsValueLeadingZero(s: string)
    requires AllDigits(s)
    ensures AllDigits("0" + s) && DigitsValue("0" + s) == DigitsValue(s)
    decreases |s|
  {
    if |s| > 0 {
      var t := "0" + s;
      assert t[..|t| - 1] == "0" + s[..|s| - 1];
      DigitsValueLeadingZero(s[..|s| - 1]);
    }
  }

  /** Reading an all-digit string back with `intval` gives its digit value. */
  lemma DigitsIntVal(s: string)
    requires |s| > 0 && AllDigits(s)
    ensures IntVal(s) == DigitsValue(s)
  {
    assert IsDigit(s[0]) && !IsNumberSpace(s[0]);
    assert SkipNumberSpace(s) == s;
    var d := LeadingDigits(s);
    assert |d| == |s|;
    assert d == s;
  }

  /** `intval(str_pad($n, 2, '0', STR_PAD_LEFT)) == $n`: the padded form is read back. */
  lemma PadTwoRoundTrip(n: nat)
    ensures IntVal(PadTwo(n)) == n
  {
    var digits := NatToString(n);
    if |digits| < 2 {
      assert PadTwo(n) == "0" + digits;
      DigitsValueLeadingZero(digits);
    }
    DigitsIntVal(PadTwo(n));
  }

  /** Distinct numbers have distinct two-digit forms. */
  lemma PadTwoInjective(a: nat, b: nat)
    requires PadTwo(a) == PadTwo(b)
    ensures a == b
  {
    PadTwoRoundTrip(a);
    PadTwoRoundTrip(b);
  }

  // ---------------------------------------------------------------------------
  // array_unique
  // ---------------------------------------------------------------------------

  predicate NoDuplicates<T(==)>(s: seq<T>) {
    forall i, j :: 0 <= i < j < |s| ==> s[i] != s[j]
  }

  /** `array_values(array_unique($s))`: the first occurrence of every element, in order. */
  function Dedup<T(==)>(s: seq<T>): (r: seq<T>)
    ensures forall k :: 0 <= k < |r| ==> r[k] in s
    ensures forall k :: 0 <= k < |s| ==> s[k] in r
    ensures NoDuplicates(r)
    ensures |r| <= |s|
  {
    if |s| == 0 then []
    else
      var p := Dedup(s[..|s| - 1]);
      var x := s[|s| - 1];
      if x in p then p else p + [x]
  }

  /** A sequence without repeats is its own `array_unique`. */
  lemma {:induction false} DedupOfDistinct<T>(s: seq<T>)
    requires NoDuplicates(s)
    ensures Dedup(s) == s
  {
    if |s| > 0 {
      var init := s[..|s| - 1];
      assert NoDuplicates(init);
      DedupOfDistinct(init);
      assert s[|s| - 1] !in init;
      assert init + [s[|s| - 1]] == s;
    }
  }

  /** Keeps the elements of `s` satisfying `p`, in order (`array_filter` with a predicate). */
  function Filter<T>(p: T -> bool, s: seq<T>): (r: seq<T>)
    ensures |r| <= |s|
    ensures forall k :: 0 <= k < |r| ==> p(r[k]) && r[k] in s
    ensures forall k :: 0 <= k < |s| && p(s[k]) ==> s[k] in r
  {
    if |s| == 0 then []
    else
      var rest := Filter(p, s[1..]);
      if p(s[0]) then [s[0]] + rest else rest
  }

  /** Filtering a sequence whose elements all pass keeps it whole. */
  lemma {:induction false} FilterAllPass<T>(p: T -> bool, s: seq<T>)
    requires forall k :: 0 <= k < |s| ==> p(s[k])
    ensures Filter(p, s) == s
  {
    if |s| > 0 {
      FilterAllPass(p, s[1..]);
      assert [s[0]] + s[1..] == s;
    }
  }
}

=== FILE: schedule_render.dfy ===
/** `wpcs_schedule` and `wpcs_banner`: the 24-index walk over the snapshot, the per-slot
    draw with its number label and promotion, the opening-remarks entry, and the page. */
module ScheduleRender {
  import opened Wrappers
  import opened Php
  import opened SlotWalk
  import opened ClockRule
  import opened SessionDraw

  /** The post ID of the opening-remarks session, drawn ahead of every schedule. */
  const OpeningId: int := 3395
  /** The default of the `start` shortcode attribute. */
  const DefaultStart: int := 15
  /** `PHP_EOL` on the platforms the plugin targets. */
  const PhpEol: string := "\n"
  /** The banner disappears this many seconds before the event starts. */
  const BannerLeadSeconds: int := 600

  /** A snapshot whose keys are hours: the keys come from `gmdate('H', ...)`. */
  type HourSnapshot = s: Snapshot | forall h :: h in s ==> 0 <= h < 24 witness map[]

  /** Everything the loop reads: the site, the event window, the clock, the snapshot and the
      formatted time of the opening-remarks post. */
  datatype Inputs = Inputs(site: Site, window: Window, clock: Clock, snap: HourSnapshot, openingTs: string)

  /** The `$session_id` argument: the two-digit slot number in a span with `buttonsoff`,
      nothing otherwise. */
  function NumberLabel(buttonsOff: bool, n: nat): (l: string)
    ensures l == "" <==> !buttonsOff
  {
    if buttonsOff then " <span class='session_id'>" + PadTwo(n) + "</span>" else ""
  }

  /** With `buttonsoff`, different slot numbers give different labels. */
  lemma NumberLabelInjective(n: nat, m: nat)
    requires NumberLabel(true, n) == NumberLabel(true, m)
    ensures n == m
  {
    var pre := " <span class='session_id'>";
    var a := PadTwo(n);
    var b := PadTwo(m);
    assert |pre + a + "</span>"| == |pre + b + "</span>"|;
    assert |a| == |b|;
    assert (pre + a + "</span>")[|pre|..|pre| + |a|] == a;
    assert (pre + b + "</span>")[|pre|..|pre| + |b|] == b;
    PadTwoInjective(n, m);
  }

  /** The flag handed to the formatter for loop index `i` of the walk starting at `lo`. */
  function SlotIsCurrent(o: Inputs, lo: int, i: int): bool
    requires Base(i) in o.snap
  {
    SlotCurrent(o.window, o.clock, Base(i), i == lo)
  }

  /** A session formatter: `wpad_draw_session` takes the entry, the current flag, the status
      label and the number label. */
  type Formatter = (Entry, bool, Label, string) -> Drawn

  /** `wpad_draw_session` on a site. */
  function Format(site: Site): Formatter {
    (e: Entry, isCurrent: bool, status: Label, numberLabel: string) => DrawSession(site, e, isCurrent, status, numberLabel)
  }

  /** The draw of populated loop index `i` under slot number `n`. */
  function DrawSlot(o: Inputs, fmt: Formatter, lo: int, i: int, n: nat): Drawn
    requires Base(i) in o.snap
  {
    var base := Base(i);
    fmt(o.snap[base], SlotIsCurrent(o, lo, i), Resolve(o.window, o.clock, base).status, NumberLabel(o.site.buttonsOff, n))
  }

  /** With the plugin's formatter, a slot's panel is hidden exactly when the toggles are shown
      and the slot is not current, and the fragment belongs to the slot's session. */
  lemma DrawSlotState(o: Inputs, lo: int, i: int, n: nat)
    requires Base(i) in o.snap
    ensures var f := DrawSlot(o, Format(o.site), lo, i, n).fragment;
            && f.postId == o.snap[Base(i)].id
            && (f.hidden <==> !o.site.buttonsOff && !SlotIsCurrent(o, lo, i))
            && (o.site.buttonsOff ==> f.numberLabel == NumberLabel(true, n))
  {
  }

  /** The loop's variables: `$output`, `$current_talk` and `$n`. */
  datatype WalkState = WalkState(fragments: seq<Fragment>, currentTalk: string, n: nat)

  /** One loop iteration. An empty hour is skipped without consuming a number; a populated
      hour whose entry has a falsy ID consumes a number but draws nothing. */
  function Step(o: Inputs, fmt: Formatter, lo: int, st: WalkState, i: int): WalkState {
    if Base(i) !in o.snap then st
    else if o.snap[Base(i)].id == 0 then st.(n := st.n + 1)
    else
      var d := DrawSlot(o, fmt, lo, i, st.n);
      WalkState(st.fragments + [d.fragment], d.summary, st.n + 1)
  }

  /** The loop state after the indices `lo .. hi - 1`. */
  function WalkTo(o: Inputs, fmt: Formatter, lo: int, hi: int): (st: WalkState)
    ensures |st.fragments| < st.n
    decreases hi - lo
  {
    if hi <= lo then WalkState([], "", 1)
    else Step(o, fmt, lo, WalkTo(o, fmt, lo, hi - 1), hi - 1)
  }

  /** The slot loop of `wpcs_schedule` over `lo .. hi - 1`. */
  method Walk(o: Inputs, fmt: Formatter, lo: int, hi: int) returns (fragments: seq<Fragment>, currentTalk: string, n: nat)
    ensures WalkState(fragments, currentTalk, n) == WalkTo(o, fmt, lo, hi)
    ensures n == 1 + |Populated(o.snap, lo, hi)|
  {
    fragments, currentTalk, n := [], "", 1;
    var i := lo;
    while i < hi
      invariant lo <= i && (i <= hi || i == lo)
      invariant WalkState(fragments, currentTalk, n) == WalkTo(o, fmt, lo, i)
      decreases hi - i
    {
      var base := Base(i);
      if base in o.snap {
        var entry := o.snap[base];
        if entry.id != 0 {
          var d := DrawSlot(o, fmt, lo, i, n);
          fragments := fragments + [d.fragment];
          currentTalk := d.summary;
        }
        n := n + 1;
      }
      i := i + 1;
    }
    WalkCount(o, fmt, lo, hi);
  }

  /** `$n` ends one past the number of populated slots: only they consume a number. */
  lemma {:induction false} WalkCount(o: Inputs, fmt: Formatter, lo: int, hi: int)
    ensures WalkTo(o, fmt, lo, hi).n == 1 + |Populated(o.snap, lo, hi)|
    decreases hi - lo
  {
    if hi > lo {
      WalkCount(o, fmt, lo, hi - 1);
    }
  }

  /** Every entry carries a post ID, as the posts of the session query do. */
  predicate AllIdsSet(snap: Snapshot) {
    forall h :: h in snap ==> snap[h].id != 0
  }

  /** The fragments are the draws of the populated slots in loop order, and the `k`-th
      carries slot number `k + 1`. */
  lemma {:induction false} WalkFragments(o: Inputs, fmt: Formatter, lo: int, hi: int)
    requires AllIdsSet(o.snap)
    ensures var p := Populated(o.snap, lo, hi);
            var fs := WalkTo(o, fmt, lo, hi).fragments;
            |fs| == |p|
            && forall k :: 0 <= k < |p| ==> fs[k] == DrawSlot(o, fmt, lo, p[k], k + 1).fragment
    decreases hi - lo
  {
    if hi > lo {
      WalkFragments(o, fmt, lo, hi - 1);
      WalkCount(o, fmt, lo, hi - 1);
      var prev := Populated(o.snap, lo, hi - 1);
      var st := WalkTo(o, fmt, lo, hi - 1);
      if Base(hi - 1) in o.snap {
        var d := DrawSlot(o, fmt, lo, hi - 1, st.n);
        var fs := st.fragments + [d.fragment];
        var p := prev + [hi - 1];
        assert WalkTo(o, fmt, lo, hi).fragments == fs;
        assert Populated(o.snap, lo, hi) == p;
        assert st.n == |prev| + 1;
        ExtendDraws(o, fmt, lo, st.fragments, prev, hi - 1);
      } else {
        assert Populated(o.snap, lo, hi) == prev;
        assert WalkTo(o, fmt, lo, hi) == st;
      }
    }
  }

  /** Appending the draw of index `i` under the next number extends a list of draws. */
  lemma ExtendDraws(o: Inputs, fmt: Formatter, lo: int, fs: seq<Fragment>, p: seq<int>, i: int)
    requires |fs| == |p| && Base(i) in o.snap
    requires forall k :: 0 <= k < |p| ==> Base(p[k]) in o.snap
    requires forall k :: 0 <= k < |p| ==> fs[k] == DrawSlot(o, fmt, lo, p[k], k + 1).fragment
    ensures var fs' := fs + [DrawSlot(o, fmt, lo, i, |p| + 1).fragment];
            var p' := p + [i];
            forall k :: 0 <= k < |p'| ==> fs'[k] == DrawSlot(o, fmt, lo, p'[k], k + 1).fragment
  {
    var fs' := fs + [DrawSlot(o, fmt, lo, i, |p| + 1).fragment];
    var p' := p + [i];
    forall k | 0 <= k < |p'|
      ensures fs'[k] == DrawSlot(o, fmt, lo, p'[k], k + 1).fragment
    {
      if k < |p| {
        assert fs'[k] == fs[k] && p'[k] == p[k];
      }
    }
  }

  /** `$current_talk` after the loop is the summary of the last populated slot, even when
      that summary is empty; with no populated slot it stays empty. */
  lemma {:induction false} WalkSummary(o: Inputs, fmt: Formatter, lo: int, hi: int)
    requires AllIdsSet(o.snap)
    ensures var p := Populated(o.snap, lo, hi);
            WalkTo(o, fmt, lo, hi).currentTalk
            == if |p| == 0 then "" else DrawSlot(o, fmt, lo, p[|p| - 1], |p|).summary
    decreases hi - lo
  {
    if hi > lo {
      WalkSummary(o, fmt, lo, hi - 1);
      WalkCount(o, fmt, lo, hi - 1);
      var prev := Populated(o.snap, lo, hi - 1);
      var st := WalkTo(o, fmt, lo, hi - 1);
      if Base(hi - 1) in o.snap {
        var p := prev + [hi - 1];
        assert Populated(o.snap, lo, hi) == p;
        assert st.n == |p|;
        assert WalkTo(o, fmt, lo, hi).currentTalk == DrawSlot(o, fmt, lo, hi - 1, st.n).summary;
      } else {
        assert Populated(o.snap, lo, hi) == prev;
        assert WalkTo(o, fmt, lo, hi) == st;
      }
    }
  }

  /** Over a walk of 24 indices, at most one slot is current by the clock. */
  lemma AtMostOneClockCurrent(o: Inputs, start: int, k: int, l: int)
    requires 0 <= k < l < |Populated(o.snap, start - 24, start)|
    ensures var p := Populated(o.snap, start - 24, start);
            !(Resolve(o.window, o.clock, Base(p[k])).clockCurrent
              && Resolve(o.window, o.clock, Base(p[l])).clockCurrent)
  {
    PopulatedHoursDistinct(o.snap, start);
  }

  /** Before the window opens (more than an hour ahead) and with the toggles shown, only the
      slot at the very first loop index is expanded; when that hour is empty, every slot stays
      collapsed, whichever is the first populated one. */
  lemma PreEventOnlyFirstIndexOpen(o: Inputs, lo: int, hi: int, k: int)
    requires AllIdsSet(o.snap)
    requires !o.site.buttonsOff
    requires !(o.window.begin - HourInSeconds < o.clock.now < o.window.end)
    requires o.clock.now <= o.window.end
    requires 0 <= k < |Populated(o.snap, lo, hi)|
    ensures var p := Populated(o.snap, lo, hi);
            && k < |WalkTo(o, Format(o.site), lo, hi).fragments|
            && (WalkTo(o, Format(o.site), lo, hi).fragments[k].hidden <==> p[k] != lo)
  {
    var p := Populated(o.snap, lo, hi);
    WalkFragments(o, Format(o.site), lo, hi);
    DrawSlotState(o, lo, p[k], k + 1);
  }

  // ---------------------------------------------------------------------------
  // wpcs_banner
  // ---------------------------------------------------------------------------

  /** The formatted parts of the banner: `gmdate('F j, Y', start)`, `human_time_diff(now,
      start)` and the escaped registration URL. */
  datatype BannerText = BannerText(startDate: string, until: string, registrationUrl: string)

  /** The callout with the given start date and countdown suffix. */
  function Callout(date: string, append: string, t: BannerText): string {
    "<div class='wpad-callout'><p>WP Accessibility Day starts " + date + " " + append
      + " <a href='" + t.registrationUrl + "'>Register today!</a> </p></div>"
  }

  function Countdown(t: BannerText): string {
    " - in just <strong>" + t.until + "</strong>!"
  }

  /** `wpcs_banner`: a callout while more than ten minutes remain before the start. The date and
      countdown are set only under a second test, `now < start`; an unset variable prints as
      the empty string. */
  function Banner(now: int, start: int, t: BannerText): (b: string)
    ensures b != "" <==> now < start - BannerLeadSeconds
    ensures b != "" ==> b == Callout(t.startDate, Countdown(t), t)
  {
    if now < start - BannerLeadSeconds then
      var date := if now < start then t.startDate else "";
      var append := if now < start then Countdown(t) else "";
      Callout(date, append, t)
    else ""
  }

  // ---------------------------------------------------------------------------
  // wpcs_schedule
  // ---------------------------------------------------------------------------

  /** The assembled page: banner, current-talk line and fragments, opening remarks first. */
  datatype Page = Page(banner: string, currentTalk: string, fragments: seq<Fragment>)

  /** The value of the `wpcs_schedule` transient when it is served, or a freshly built page. */
  datatype Outcome = Cached(html: string) | Fresh(page: Page)

  /** The opening-remarks draw: current, labelled "Up next: ", without a number. */
  function Opening(o: Inputs, fmt: Formatter): Drawn {
    fmt(Entry(OpeningId, o.openingTs), true, UpNext, "")
  }

  /** With the plugin's formatter the opening remarks are always expanded. */
  lemma OpeningShown(o: Inputs)
    ensures !Opening(o, Format(o.site)).fragment.hidden
    ensures Opening(o, Format(o.site)).fragment.postId == OpeningId
  {
  }

  /** `wpcs_schedule`, with `fmt` drawing the sessions (`Format(o.site)` in the plugin).
      `cached` is the transient (`None` for `false`), `resetCache` the `reset_cache` query
      flag, `startAttr` the `start` attribute. */
  function RenderSchedule(cached: Option<string>, resetCache: bool, o: Inputs, fmt: Formatter,
                          startAttr: Option<int>, banner: BannerText): (out: Outcome)
    ensures out.Cached? <==> cached.Some? && Truthy(cached.value) && !resetCache
    ensures out.Cached? ==> out.html == cached.value
    ensures out.Fresh? ==>
              var start := startAttr.GetOr(DefaultStart);
              var walk := WalkTo(o, fmt, start - 24, start);
              && |out.page.fragments| == 1 + |walk.fragments|
              && out.page.fragments[0] == Opening(o, fmt).fragment
              && out.page.fragments[1..] == walk.fragments
              && out.page.currentTalk == walk.currentTalk
              && out.page.banner == Banner(o.clock.now, o.window.begin, banner)
              && (out.page.banner != "" <==> o.clock.now < o.window.begin - BannerLeadSeconds)
  {
    if cached.Some? && Truthy(cached.value) && !resetCache then Cached(cached.value)
    else
      var start := startAttr.GetOr(DefaultStart);
      var walk := WalkTo(o, fmt, start - 24, start);
      var opening := Opening(o, fmt);
      assert ([opening.fragment] + walk.fragments)[1..] == walk.fragments;
      Fresh(Page(Banner(o.clock.now, o.window.begin, banner), walk.currentTalk, [opening.fragment] + walk.fragments))
  }

  /** The page as one string, given the markup of each fragment: banner, current-talk line,
      then the fragments joined by `PHP_EOL`. */
  function PageHtml(p: Page, render: Fragment -> string): string {
    p.banner + p.currentTalk + Implode(PhpEol, seq(|p.fragments|, k requires 0 <= k < |p.fragments| => render(p.fragments[k])))
  }

  /** A freshly built page opens with the banner, then the current-talk line, then the
      opening-remarks markup. */
  lemma {:induction false} FreshPageOpens(cached: Option<string>, resetCache: bool, o: Inputs, fmt: Formatter,
                                          startAttr: Option<int>, banner: BannerText, render: Fragment -> string)
    requires RenderSchedule(cached, resetCache, o, fmt, startAttr, banner).Fresh?
    ensures var p := RenderSchedule(cached, resetCache, o, fmt, startAttr, banner).page;
            var head := p.banner + p.currentTalk + render(Opening(o, fmt).fragment);
            var html := PageHtml(p, render);
            |html| >= |head| && html[..|head|] == head
  {
    var p := RenderSchedule(cached, resetCache, o, fmt, startAttr, banner).page;
    var parts := seq(|p.fragments|, k requires 0 <= k < |p.fragments| => render(p.fragments[k]));
    ImplodeHead(PhpEol, parts);
    var j := Implode(PhpEol, parts);
    var pre := p.banner + p.currentTalk;
    assert PageHtml(p, render) == pre + j;
    assert (pre + j)[..|pre| + |parts[0]|] == pre + j[..|parts[0]|];
  }
}

=== FILE: session_admin.dfy ===
/** The admin-side rules of the main plugin class: session-type whitelisting, the save
    handler's meta writes, the post-state label, the time column and the date back-fill. */
module SessionAdmin {
  import opened Wrappers
  import opened Php
  import opened OrderedArray

  /** The session types the plugin knows. */
  const SessionTypes: set<string> := {"session", "lightning", "panel", "custom"}

  /** Any value outside the known types is treated as "session". */
  function NormalizeSessionType(t: string): (r: string)
    ensures r in SessionTypes
    ensures t in SessionTypes ==> r == t
    ensures t !in SessionTypes ==> r == "session"
  {
    if t in SessionTypes then t else "session"
  }

  /** Normalising twice is normalising once. */
  lemma NormalizeIdempotent(t: string)
    ensures NormalizeSessionType(NormalizeSessionType(t)) == NormalizeSessionType(t)
  {
  }

  // ---------------------------------------------------------------------------
  // wpcs_save_post_session
  // ---------------------------------------------------------------------------

  /** The meta keys the save handler writes on the post. */
  const SpeakersListKey: string := "_conference_session_speakers"
  const TimeKey: string := "_wpcs_session_time"
  const TypeKey: string := "_wpcs_session_type"
  const SpeakersKey: string := "_wpcs_session_speakers"
  const YoutubeKey: string := "_wpcs_youtube_id"
  const CaptionKey: string := "_wpcs_caption_url"
  /** The user meta key remembering the last time entered. */
  const LastEnteredKey: string := "_last_entered"

  const InfoKeys: set<string> := {TimeKey, TypeKey, SpeakersKey, YoutubeKey, CaptionKey}

  /** A save request: whether the post is a revision, its type, the outcome of the two
      nonce checks (the first including the `edit_post` capability), and the submitted form. */
  datatype SaveRequest = SaveRequest(
    isRevision: bool,
    postType: string,
    speakersListAuthorized: bool,
    sessionInfoAuthorized: bool,
    form: map<string, string>)

  /** The post's meta and the current user's meta after a save. */
  datatype Metas = Metas(post: map<string, string>, user: map<string, string>)

  /** `sanitize_text_field($_POST[$field] ?? '')`. */
  function Field(req: SaveRequest, sanitize: string -> string, field: string): string {
    sanitize(Get(req.form, field).GetOr(""))
  }

  /** The stored session time: the parsed date and time when an hour was submitted, the
      empty string otherwise. `parsedTime` stands for the `strtotime` result. */
  function SessionTime(req: SaveRequest, parsedTime: string): (t: string)
    ensures IsEmpty(Get(req.form, "wpcs-session-hour")) ==> t == ""
    ensures !IsEmpty(Get(req.form, "wpcs-session-hour")) ==> t == parsedTime
  {
    if !IsEmpty(Get(req.form, "wpcs-session-hour")) then parsedTime else ""
  }

  /** `wpcs_save_post_session`. */
  function SavePostSession(req: SaveRequest, m: Metas, sanitize: string -> string, parsedTime: string): (r: Metas)
    ensures req.isRevision || req.postType != "wpcs_session" ==> r == m
    ensures forall k :: k != SpeakersListKey && k !in InfoKeys ==> Get(r.post, k) == Get(m.post, k)
    ensures forall k :: k != LastEnteredKey ==> Get(r.user, k) == Get(m.user, k)
    ensures !req.isRevision && req.postType == "wpcs_session" && req.speakersListAuthorized ==>
              Get(r.post, SpeakersListKey) == Some(Field(req, sanitize, "wpcs-speakers-list"))
    ensures !(!req.isRevision && req.postType == "wpcs_session" && req.speakersListAuthorized) ==>
              Get(r.post, SpeakersListKey) == Get(m.post, SpeakersListKey)
    ensures !req.isRevision && req.postType == "wpcs_session" && req.sessionInfoAuthorized ==>
              && Get(r.post, TimeKey) == Some(SessionTime(req, parsedTime))
              && Get(r.user, LastEnteredKey) == Some(SessionTime(req, parsedTime))
              && Get(r.post, TypeKey) == Some(NormalizeSessionType(Field(req, sanitize, "wpcs-session-type")))
              && Get(r.post, SpeakersKey) == Some(Field(req, sanitize, "wpcs-session-speakers"))
              && Get(r.post, YoutubeKey) == Some(Field(req, sanitize, "wpcs-session-youtube"))
              && Get(r.post, CaptionKey) == Some(Field(req, sanitize, "wpcs-session-caption"))
    ensures !(!req.isRevision && req.postType == "wpcs_session" && req.sessionInfoAuthorized) ==>
              (forall k :: k in InfoKeys ==> Get(r.post, k) == Get(m.post, k)) && r.user == m.user
    ensures r.post.Keys >= m.post.Keys
  {
    if req.isRevision || req.postType != "wpcs_session" then m
    else
      var post1 := if req.speakersListAuthorized
                   then m.post[SpeakersListKey := Field(req, sanitize, "wpcs-speakers-list")]
                   else m.post;
      if req.sessionInfoAuthorized then
        var time := SessionTime(req, parsedTime);
        var post2 := post1[TimeKey := time]
                          [TypeKey := NormalizeSessionType(Field(req, sanitize, "wpcs-session-type"))]
                          [SpeakersKey := Field(req, sanitize, "wpcs-session-speakers")]
                          [YoutubeKey := Field(req, sanitize, "wpcs-session-youtube")]
                          [CaptionKey := Field(req, sanitize, "wpcs-session-caption")];
        Metas(post2, m.user[LastEnteredKey := time])
      else Metas(post1, m.user)
  }

  /** Whatever is submitted, the stored session type is one of the known types. */
  lemma SavedTypeIsKnown(req: SaveRequest, m: Metas, sanitize: string -> string, parsedTime: string)
    requires TypeKey in m.post ==> m.post[TypeKey] in SessionTypes
    ensures var r := SavePostSession(req, m, sanitize, parsedTime);
            TypeKey in r.post ==> r.post[TypeKey] in SessionTypes
  {
    var r := SavePostSession(req, m, sanitize, parsedTime);
    assert Get(r.post, TypeKey).Some? ==> Get(r.post, TypeKey).value == r.post[TypeKey];
  }

  // ---------------------------------------------------------------------------
  // wpcs_display_post_states
  // ---------------------------------------------------------------------------

  /** The post `get_post()` returns: its type and its `_wpcs_session_type` meta. */
  datatype PostInfo = PostInfo(postType: string, sessionType: string)

  /** The label a session type shows in the post list; custom sessions have none. */
  function TypeLabel(t: string): (l: Option<string>)
    requires t in SessionTypes
    ensures l.None? <==> t == "custom"
  {
    if t == "session" then Some("Session")
    else if t == "lightning" then Some("Lightning Talks")
    else if t == "panel" then Some("Panel")
    else None
  }

  const StateKey: string := "wpcs-session-type"

  /** `wpcs_display_post_states`: `None` (PHP `null`) without a post, the states unchanged
      for other post types, and for sessions the type label under `wpcs-session-type`. */
  function DisplayPostStates(post: Option<PostInfo>, states: seq<(string, string)>): (r: Option<seq<(string, string)>>)
    ensures post.None? <==> r.None?
    ensures post.Some? && post.value.postType != "wpcs_session" ==> r == Some(states)
    ensures post.Some? && post.value.postType == "wpcs_session" ==>
              var shown := TypeLabel(NormalizeSessionType(post.value.sessionType));
              && (shown.None? ==> r == Some(states))
              && (shown.Some? ==>
                    && Lookup(r.value, StateKey) == shown
                    && (forall k :: k != StateKey ==> Lookup(r.value, k) == Lookup(states, k))
                    && KeysWithout(r.value, StateKey) == KeysWithout(states, StateKey))
  {
    match post
    case None => None
    case Some(p) =>
      if p.postType != "wpcs_session" then Some(states)
      else
        var shown := TypeLabel(NormalizeSessionType(p.sessionType));
        if shown.None? then Some(states)
        else
          PutSpec(states, StateKey, shown.value);
          PutKeysWithout(states, StateKey, shown.value);
          Some(Put(states, StateKey, shown.value))
  }

  /** `$a[$k] = $v` leaves the order of the other keys alone. */
  lemma {:induction false} PutKeysWithout<V>(a: seq<(string, V)>, k: string, v: V)
    ensures KeysWithout(Put(a, k, v), k) == KeysWithout(a, k)
  {
    if |a| > 0 {
      if a[0].0 == k {
        assert ([(k, v)] + a[1..])[1..] == a[1..];
      } else {
        PutKeysWithout(a[1..], k, v);
        var r := [a[0]] + Put(a[1..], k, v);
        assert r[1..] == Put(a[1..], k, v);
      }
    }
  }

  // ---------------------------------------------------------------------------
  // wpcs_manage_post_types_columns / wpcs_manage_sortable_columns
  // ---------------------------------------------------------------------------

  const TimeColumn: string := "conference_session_time"
  const ColumnsFilter: string := "manage_wpcs_session_posts_columns"
  const SortableFilter: string := "manage_edit-wpcs_session_sortable_columns"

  /** The column list with the time column after the first: the first column, then the time
      column, then the rest, each `+` keeping the earlier copy of a repeated key. */
  function InsertTimeColumn(currentFilter: string, columns: seq<(string, string)>): (r: seq<(string, string)>)
    ensures currentFilter != ColumnsFilter ==> r == columns
  {
    if currentFilter == ColumnsFilter then
      Union(Union(Slice(columns, 0, Some(1)), [(TimeColumn, "Time")]), Slice(columns, 1, None))
    else columns
  }

  /** On the session list: the first column stays first and the time column follows it; every
      other column keeps its value and its relative order; keys stay unique; a time column
      already present further on is dropped. */
  lemma {:induction false} TimeColumnInserted(columns: seq<(string, string)>)
    requires UniqueKeys(columns)
    ensures var r := InsertTimeColumn(ColumnsFilter, columns);
            && UniqueKeys(r)
            && (forall k :: k != TimeColumn ==> Lookup(r, k) == Lookup(columns, k))
            && KeysWithout(r, TimeColumn) == KeysWithout(columns, TimeColumn)
            && (|columns| == 0 ==> r == [(TimeColumn, "Time")])
            && (|columns| > 0 && columns[0].0 != TimeColumn ==>
                  |r| >= 2 && r[0] == columns[0] && r[1] == (TimeColumn, "Time"))
            && (|columns| > 0 && columns[0].0 == TimeColumn ==> r == columns)
  {
    var r := InsertTimeColumn(ColumnsFilter, columns);
    var head := Slice(columns, 0, Some(1));
    var tail := Slice(columns, 1, None);
    var t := [(TimeColumn, "Time")];
    var left := Union(head, t);
    assert UniqueKeys(head) && UniqueKeys(tail);
    UnionUnique(head, t);
    UnionUnique(left, tail);
    forall k | k != TimeColumn ensures Lookup(r, k) == Lookup(columns, k) {
      UnionLookup(left, tail, k);
      UnionLookup(head, t, k);
      LookupAppend(head, tail, k);
      if |columns| > 0 {
        assert columns == head + tail;
      } else {
        assert tail == [];
      }
    }
    if |columns| == 0 {
      assert head == [] && tail == [];
      assert Missing(head, t) == t;
      assert left == t;
      assert Missing(left, tail) == [];
    } else {
      assert head == [columns[0]];
      assert tail == columns[1..];
      assert columns == head + tail;
      if columns[0].0 == TimeColumn {
        assert HasKey(head, TimeColumn);
        assert Missing(head, t) == [];
        assert left == head;
        MissingAllFresh(head, tail);
      } else {
        assert !HasKey(head, TimeColumn);
        assert Missing(head, t) == t;
        assert left == head + t;
        assert r == left + Missing(left, tail);
      }
    }
    TimeColumnOrder(columns);
  }

  /** When no key of `b` is a key of `a`, `Missing(a, b)` is all of `b`. */
  lemma {:induction false} MissingAllFresh<V>(a: seq<(string, V)>, b: seq<(string, V)>)
    requires forall i :: 0 <= i < |b| ==> !HasKey(a, b[i].0)
    ensures Missing(a, b) == b
  {
    if |b| > 0 {
      MissingAllFresh(a, b[1..]);
    }
  }

  /** The keys of `Missing(a, b)` other than `k`, for `a` holding only `k` beyond `a0`. */
  lemma {:induction false} MissingKeysWithout<V>(a: seq<(string, V)>, b: seq<(string, V)>, k: string)
    requires UniqueKeys(b)
    requires forall i :: 0 <= i < |b| ==> (HasKey(a, b[i].0) <==> b[i].0 == k)
    ensures KeysWithout(Missing(a, b), k) == KeysWithout(b, k)
  {
    if |b| > 0 {
      MissingKeysWithout(a, b[1..], k);
      if b[0].0 != k {
        var m := [b[0]] + Missing(a, b[1..]);
        assert m[1..] == Missing(a, b[1..]);
      }
    }
  }

  lemma TimeColumnOrder(columns: seq<(string, string)>)
    requires UniqueKeys(columns)
    ensures KeysWithout(InsertTimeColumn(ColumnsFilter, columns), TimeColumn) == KeysWithout(columns, TimeColumn)
  {
    var head := Slice(columns, 0, Some(1));
    var tail := Slice(columns, 1, None);
    var t := [(TimeColumn, "Time")];
    var left := Union(head, t);
    if |columns| == 0 {
      assert head == [];
      assert Missing(head, t) == t;
      assert left == t;
      assert KeysWithout(t, TimeColumn) == [];
    } else {
      assert head == [columns[0]];
      assert tail == columns[1..];
      assert columns == head + tail;
      assert UniqueKeys(tail);
      forall i | 0 <= i < |tail| ensures HasKey(left, tail[i].0) <==> tail[i].0 == TimeColumn {
        assert tail[i] == columns[i + 1];
        if columns[0].0 == TimeColumn {
          assert HasKey(head, TimeColumn);
          assert Missing(head, t) == [];
          assert left == head;
        } else {
          assert Missing(head, t) == t;
          assert left == head + t;
          assert left[1].0 == TimeColumn;
        }
      }
      if columns[0].0 == TimeColumn {
        forall i | 0 <= i < |tail| ensures tail[i].0 != TimeColumn {
          assert tail[i] == columns[i + 1];
        }
      }
      MissingKeysWithout(left, tail, TimeColumn);
      KeysWithoutAppend(left, Missing(left, tail), TimeColumn);
      KeysWithoutAppend(head, tail, TimeColumn);
      if columns[0].0 != TimeColumn {
        assert Missing(head, t) == t;
        KeysWithoutAppend(head, t, TimeColumn);
        assert KeysWithout(t, TimeColumn) == [];
      } else {
        assert HasKey(head, TimeColumn);
        assert Missing(head, t) == [];
        assert left == head;
      }
    }
  }

  /** `wpcs_manage_sortable_columns`: on the session list the time column sorts by the
      session time meta; otherwise the list is unchanged. */
  function SortableColumns(currentFilter: string, sortable: seq<(string, string)>): (r: seq<(string, string)>)
    ensures currentFilter != SortableFilter ==> r == sortable
    ensures currentFilter == SortableFilter ==>
              && Lookup(r, TimeColumn) == Some(TimeKey)
              && (forall k :: k != TimeColumn ==> Lookup(r, k) == Lookup(sortable, k))
  {
    if currentFilter == SortableFilter then
      PutSpec(sortable, TimeColumn, TimeKey);
      Put(sortable, TimeColumn, TimeKey)
    else sortable
  }

  // ---------------------------------------------------------------------------
  // wpcs_update_session_date_meta
  // ---------------------------------------------------------------------------

  const DateKey: string := "_wpcs_session_date"

  /** The post ID of the request: `post_ID` unless it is empty, then `post`; 0 when neither
      parameter is present. */
  function RequestPostId(request: map<string, string>): (id: nat)
    ensures "post" !in request && "post_ID" !in request ==> id == 0
    ensures !IsEmpty(Get(request, "post_ID")) ==> id == AbsInt(Get(request, "post_ID"))
    ensures ("post" in request || "post_ID" in request) && IsEmpty(Get(request, "post_ID")) ==>
              id == AbsInt(Get(request, "post"))
  {
    if "post" in request || "post_ID" in request then
      if IsEmpty(Get(request, "post_ID")) then AbsInt(Get(request, "post")) else AbsInt(Get(request, "post_ID"))
    else 0
  }

  /** The meta value as `get_post_meta(..., true)` reads it: "" when unset. */
  function MetaOf(meta: map<int, map<string, string>>, id: int, key: string): string {
    if id in meta && key in meta[id] then meta[id][key] else ""
  }

  /** `wpcs_update_session_date_meta`: copies the session time into the session date when
      the post is known, has no date and has a time; nothing else changes. */
  function BackfillSessionDate(request: map<string, string>, meta: map<int, map<string, string>>): (r: map<int, map<string, string>>)
    ensures var id := RequestPostId(request);
            var copies := id != 0 && !Truthy(MetaOf(meta, id, DateKey)) && Truthy(MetaOf(meta, id, TimeKey));
            && (!copies ==> r == meta)
            && (copies ==> MetaOf(r, id, DateKey) == MetaOf(meta, id, TimeKey))
            && (forall p, k :: (p != id || k != DateKey) ==> MetaOf(r, p, k) == MetaOf(meta, p, k))
  {
    var id := RequestPostId(request);
    var date := MetaOf(meta, id, DateKey);
    var time := MetaOf(meta, id, TimeKey);
    if id != 0 && !Truthy(date) && Truthy(time) then
      var row := if id in meta then meta[id] else map[];
      meta[id := row[DateKey := time]]
    else meta
  }

  /** Back-filling is idempotent: a second run finds the date set and changes nothing. */
  lemma BackfillIdempotent(request: map<string, string>, meta: map<int, map<string, string>>)
    ensures BackfillSessionDate(request, BackfillSessionDate(request, meta)) == BackfillSessionDate(request, meta)
  {
  }
}

=== FILE: session_draw.dfy ===
/** `wpad_draw_session` and `wpcs_session_speakers`: one session of the schedule as a
    structured fragment plus its one-line "current talk" summary. The markup is modelled by
    its observable parts (wrapper, description, hidden panel, toggle control, speaker list);
    escaping and formatting helpers are represented by their results, stored on the session. */
module SessionDraw {
  import opened Wrappers
  import opened Php
  import opened SlotWalk
  import opened ClockRule

  /** One speaker reference: a numeric speaker post ID, or a free-text name
      (the `is_numeric` test of `wpcs_session_speakers`). */
  datatype SpeakerRef = SpeakerPost(id: int) | SpeakerName(text: string)

  /** The speaker meta of a session: the `wpcsp_session_speakers` array when it is an array,
      otherwise the single `_wpcs_session_speakers` text value. */
  datatype SpeakerMeta = SpeakerList(refs: seq<SpeakerRef>) | SpeakerField(ref: SpeakerRef)

  /** A speaker post's meta: first and last name, job title, organization. */
  datatype Speaker = Speaker(first: string, last: string, title: string, organization: string)

  /** A session post as the formatter reads it. `slug` is `sanitize_title` of the title,
      `typeClass` is `sanitize_html_class` of the `_wpcs_session_type` meta, `hourText` and
      `minuteText` are `gmdate('H')`/`gmdate('i')` of its time, `description` is the trimmed
      content, `sponsorsHtml` is what `wpcs_session_sponsors` returns. */
  datatype Session = Session(
    title: string,
    slug: string,
    description: string,
    typeClass: string,
    hourText: string,
    minuteText: string,
    speakers: SpeakerMeta,
    lightningTalks: string,
    sponsorsHtml: string)

  /** What a missing post reads as: empty fields and an empty `_wpcs_session_speakers` value. */
  const EmptySession := Session("", "", "", "", "", "", SpeakerField(SpeakerName("")), "", "")

  /** Everything the formatter reads besides its arguments: the posts, the speaker posts, and
      the `buttonsoff` query flag and `is_page('schedule')` test of the request. */
  datatype Site = Site(
    sessions: map<int, Session>,
    people: map<int, Speaker>,
    buttonsOff: bool,
    onSchedulePage: bool)

  function SessionOf(site: Site, id: int): Session {
    if id in site.sessions then site.sessions[id] else EmptySession
  }

  function PersonOf(site: Site, id: int): Speaker {
    if id in site.people then site.people[id] else Speaker("", "", "", "")
  }

  // ---------------------------------------------------------------------------
  // wpcs_session_speakers
  // ---------------------------------------------------------------------------

  /** The elements of `s` in reverse order (`array_reverse`). */
  function Reverse<T>(s: seq<T>): (r: seq<T>)
    ensures |r| == |s|
    ensures forall k :: 0 <= k < |s| ==> r[k] == s[|s| - 1 - k]
  {
    if |s| == 0 then [] else Reverse(s[1..]) + [s[0]]
  }

  /** The references the speaker loop walks: the meta array reversed, or the text value alone. */
  function Refs(m: SpeakerMeta): seq<SpeakerRef> {
    match m
    case SpeakerList(refs) => Reverse(refs)
    case SpeakerField(r) => [r]
  }

  /** `$first_name . ' ' . $last_name` for a speaker post, the text itself for a free-text name. */
  function NameOf(site: Site, r: SpeakerRef): string {
    match r
    case SpeakerPost(id) => PersonOf(site, id).first + " " + PersonOf(site, id).last
    case SpeakerName(t) => t
  }

  /** The truthy job title and organization of a speaker, in that order. */
  function TitleOrg(sp: Speaker): (r: seq<string>)
    ensures |r| == (if Truthy(sp.title) then 1 else 0) + (if Truthy(sp.organization) then 1 else 0)
    ensures forall k :: 0 <= k < |r| ==> Truthy(r[k])
    ensures Truthy(sp.title) ==> r[0] == sp.title
    ensures Truthy(sp.organization) ==> r[|r| - 1] == sp.organization
  {
    (if Truthy(sp.title) then [sp.title] else []) + (if Truthy(sp.organization) then [sp.organization] else [])
  }

  /** One speaker card: the displayed name, the linked speaker post if any, and the
      title/organization line. */
  datatype Card = Card(name: string, link: Option<int>, titleOrg: seq<string>)

  /** The speaker cards of a non-lightning session. `$title_organization` is reset only for
      speaker posts, so a free-text name shows the line of the speaker post before it. */
  function Cards(site: Site, refs: seq<SpeakerRef>, carried: seq<string>): (cs: seq<Card>)
    ensures |cs| == |refs|
  {
    if |refs| == 0 then []
    else match refs[0]
      case SpeakerName(t) => [Card(t, None, carried)] + Cards(site, refs[1..], carried)
      case SpeakerPost(id) =>
        var line := TitleOrg(PersonOf(site, id));
        [Card(NameOf(site, refs[0]), Some(id), line)] + Cards(site, refs[1..], line)
  }

  /** Card `k` names reference `k`, and links exactly the speaker posts. */
  lemma {:induction false} CardsNames(site: Site, refs: seq<SpeakerRef>, carried: seq<string>, k: int)
    requires 0 <= k < |refs|
    ensures Cards(site, refs, carried)[k].name == NameOf(site, refs[k])
    ensures Cards(site, refs, carried)[k].link.Some? <==> refs[k].SpeakerPost?
    ensures refs[k].SpeakerPost? ==> Cards(site, refs, carried)[k].link == Some(refs[k].id)
    decreases |refs|
  {
    CardsUnfold(site, refs, carried);
    if k > 0 {
      var cs := Cards(site, refs, carried);
      var rest := Cards(site, refs[1..], CarriedAfterFirst(site, refs, carried));
      assert cs[k] == rest[k - 1];
      CardsNames(site, refs[1..], CarriedAfterFirst(site, refs, carried), k - 1);
    }
  }

  /** The title/organization line card `k` shows: that of the nearest speaker post at or
      before `k`, or `carried` if there is none. */
  function LineShown(site: Site, refs: seq<SpeakerRef>, k: int, carried: seq<string>): seq<string>
    requires 0 <= k < |refs|
  {
    match refs[k]
    case SpeakerPost(id) => TitleOrg(PersonOf(site, id))
    case SpeakerName(_) => if k == 0 then carried else LineShown(site, refs, k - 1, carried)
  }

  lemma {:induction false} LineShownTail(site: Site, refs: seq<SpeakerRef>, k: int, carried: seq<string>)
    requires 1 <= k < |refs|
    ensures LineShown(site, refs[1..], k - 1, CarriedAfterFirst(site, refs, carried))
            == LineShown(site, refs, k, carried)
  {
    assert refs[1..][k - 1] == refs[k];
    if k > 1 && refs[k].SpeakerName? {
      LineShownTail(site, refs, k - 1, carried);
    }
  }

  function CarriedAfterFirst(site: Site, refs: seq<SpeakerRef>, carried: seq<string>): seq<string>
    requires |refs| > 0
  {
    match refs[0]
    case SpeakerPost(id) => TitleOrg(PersonOf(site, id))
    case SpeakerName(_) => carried
  }

  /** Every card shows the title/organization line of the nearest speaker post at or before it. */
  lemma {:induction false} CardsShowCarriedLine(site: Site, refs: seq<SpeakerRef>, carried: seq<string>, k: int)
    requires 0 <= k < |refs|
    ensures Cards(site, refs, carried)[k].titleOrg == LineShown(site, refs, k, carried)
    decreases |refs|
  {
    CardsUnfold(site, refs, carried);
    if k > 0 {
      var next := CarriedAfterFirst(site, refs, carried);
      var cs := Cards(site, refs, carried);
      var rest := Cards(site, refs[1..], next);
      assert cs[1..] == rest;
      assert cs[k] == rest[k - 1];
      CardsShowCarriedLine(site, refs[1..], next, k - 1);
      LineShownTail(site, refs, k, carried);
    }
  }

  /** The first card shows the carried line or its own, and the rest are the cards of the
      remaining references under the line carried on. */
  lemma CardsUnfold(site: Site, refs: seq<SpeakerRef>, carried: seq<string>)
    requires |refs| > 0
    ensures Cards(site, refs, carried)[0].titleOrg == LineShown(site, refs, 0, carried)
    ensures Cards(site, refs, carried)[0].name == NameOf(site, refs[0])
    ensures Cards(site, refs, carried)[0].link == if refs[0].SpeakerPost? then Some(refs[0].id) else None
    ensures Cards(site, refs, carried)[1..] == Cards(site, refs[1..], CarriedAfterFirst(site, refs, carried))
  {
  }

  /** The speaker markup: a headed list of cards, or for lightning sessions one block per
      entry of the comma-separated `wpad_lightning_talks` meta. */
  datatype SpeakersHtml = SpeakerCards(heading: string, cards: seq<Card>) | LightningBlocks(talks: seq<string>)

  /** `wpcs_session_speakers`: the `list` of names and the `html`. */
  datatype SpeakersOut = SpeakersOut(names: seq<string>, html: SpeakersHtml)

  /** The heading above the cards: empty on the schedule page (and when there are no
      references, where `$speakers_heading` is never set). */
  function SpeakersHeading(site: Site, count: nat): (h: string)
    ensures h != "" <==> count > 0 && !site.onSchedulePage
    ensures h == "Speakers" <==> count > 1 && !site.onSchedulePage
  {
    if count == 0 || site.onSchedulePage then "" else if count > 1 then "Speakers" else "Speaker"
  }

  /** `wpcs_session_speakers($id, $type)`. The name list follows the reversed meta order and
      stays empty for lightning sessions, whose markup is one block per lightning talk. */
  function SessionSpeakers(site: Site, s: Session): (out: SpeakersOut)
    ensures s.typeClass == "lightning" ==> out.names == [] && out.html.LightningBlocks?
    ensures s.typeClass != "lightning" ==>
              |out.names| == |Refs(s.speakers)|
              && (forall k :: 0 <= k < |out.names| ==> out.names[k] == NameOf(site, Refs(s.speakers)[k]))
              && out.html.SpeakerCards?
              && |out.html.cards| == |out.names|
    ensures s.speakers.SpeakerList? && s.typeClass != "lightning" ==>
              forall k :: 0 <= k < |out.names| ==>
                out.names[k] == NameOf(site, s.speakers.refs[|s.speakers.refs| - 1 - k])
    ensures out.html.LightningBlocks? && |out.html.talks| > 0 ==>
              |Refs(s.speakers)| > 0 && Implode(",", out.html.talks) == s.lightningTalks
    ensures s.typeClass == "lightning" && |Refs(s.speakers)| > 0 && Truthy(s.lightningTalks) ==>
              Implode(",", out.html.talks) == s.lightningTalks
              && forall k :: 0 <= k < |out.html.talks| ==> ',' !in out.html.talks[k]
    ensures s.typeClass == "lightning" && !(|Refs(s.speakers)| > 0 && Truthy(s.lightningTalks)) ==>
              out.html.talks == []
    ensures s.typeClass != "lightning" ==>
              out.html.heading == SpeakersHeading(site, |Refs(s.speakers)|)
              && forall k :: 0 <= k < |out.html.cards| ==>
                   && out.html.cards[k].name == out.names[k]
                   && (out.html.cards[k].link.Some? <==> Refs(s.speakers)[k].SpeakerPost?)
                   && out.html.cards[k].titleOrg == LineShown(site, Refs(s.speakers), k, [])
  {
    var refs := Refs(s.speakers);
    if s.typeClass == "lightning" then
      var talks := if |refs| > 0 && Truthy(s.lightningTalks) then Explode(',', s.lightningTalks) else [];
      ImplodeExplode(',', s.lightningTalks);
      SpeakersOut([], LightningBlocks(talks))
    else
      var names := seq(|refs|, k requires 0 <= k < |refs| => NameOf(site, refs[k]));
      var cards := Cards(site, refs, []);
      assert forall k :: 0 <= k < |cards| ==>
               && cards[k].name == names[k]
               && (cards[k].link.Some? <==> refs[k].SpeakerPost?)
               && cards[k].titleOrg == LineShown(site, refs, k, []) by {
        forall k | 0 <= k < |cards|
          ensures cards[k].name == names[k]
          ensures cards[k].link.Some? <==> refs[k].SpeakerPost?
          ensures cards[k].titleOrg == LineShown(site, refs, k, [])
        {
          CardsNames(site, refs, [], k);
          CardsShowCarriedLine(site, refs, [], k);
        }
      }
      SpeakersOut(names, SpeakerCards(SpeakersHeading(site, |refs|), cards))
  }

  // ---------------------------------------------------------------------------
  // wpad_draw_session
  // ---------------------------------------------------------------------------

  datatype Icon = Plus | Minus

  /** The "View Details" toggle button: absent with `buttonsoff`, otherwise its
      `aria-expanded` state and dashicon. */
  datatype Control = NoControl | Toggle(expanded: bool, icon: Icon, title: string)

  /** The observable structure of one session's markup. */
  datatype Fragment = Fragment(
    postId: int,
    typeClass: string,
    anchor: string,
    ts: string,
    hourText: string,
    minuteText: string,
    title: string,
    numberLabel: string,
    panelLabel: bool,
    speakerNames: seq<string>,
    wrapped: bool,
    description: Option<string>,
    sponsorsHtml: string,
    speakers: SpeakersHtml,
    hidden: bool,
    control: Control)

  /** What `wpad_draw_session` returns: the fragment and the "current talk" line. */
  datatype Drawn = Drawn(fragment: Fragment, summary: string)

  /** The "current talk" paragraph for a session under status text `text`. */
  function CurrentTalkLine(text: string, s: Session): (line: string)
    ensures |line| > 0
    ensures var open := "<p class='current-talk'><strong>" + text + "</strong> <a href='#";
            |open| + |s.slug| <= |line|
            && line[..|open|] == open && line[|open|..|open| + |s.slug|] == s.slug
    ensures |s.title| + 8 <= |line| && line[|line| - 8 - |s.title|..|line| - 8] == s.title
    ensures line[|line| - 8..] == "</a></p>"
  {
    "<p class='current-talk'><strong>" + text + "</strong> <a href='#" + s.slug + "'>"
      + s.hourText + ":" + s.minuteText + " UTC - " + s.title + "</a></p>"
  }

  /** `wpad_draw_session($talk, $is_current, $text, $session_id)`. */
  function DrawSession(site: Site, e: Entry, isCurrent: bool, status: Label, numberLabel: string): (d: Drawn)
    ensures d.summary != "" <==> isCurrent && status != Suppressed
    ensures d.summary != "" ==>
              d.summary == CurrentTalkLine(LabelText(status).value, SessionOf(site, e.id))
    ensures isCurrent ==> !d.fragment.hidden
    ensures !isCurrent ==> d.fragment.hidden == !site.buttonsOff
    ensures site.buttonsOff <==> d.fragment.control.NoControl?
    ensures d.fragment.control.Toggle? ==>
              d.fragment.control.expanded == isCurrent
              && (d.fragment.control.icon == Minus <==> isCurrent)
    ensures d.fragment.typeClass == "lightning" <==> !d.fragment.wrapped
    ensures d.fragment.description.None? <==> !d.fragment.wrapped
    ensures d.fragment.panelLabel <==> d.fragment.typeClass == "panel"
    ensures d.fragment.typeClass == "lightning" ==> d.fragment.speakerNames == []
    ensures d.fragment.postId == e.id && d.fragment.ts == e.ts && d.fragment.numberLabel == numberLabel
    ensures var s := SessionOf(site, e.id);
            && d.fragment.typeClass == s.typeClass
            && d.fragment.anchor == s.slug && d.fragment.title == s.title
            && d.fragment.speakerNames == SessionSpeakers(site, s).names
            && d.fragment.speakers == SessionSpeakers(site, s).html
            && (s.typeClass != "lightning" ==> d.fragment.description == Some(s.description))
  {
    var s := SessionOf(site, e.id);
    var speakers := SessionSpeakers(site, s);
    var lightning := s.typeClass == "lightning";
    var control :=
      if site.buttonsOff then NoControl
      else Toggle(isCurrent, if isCurrent then Minus else Plus, s.title);
    var text := LabelText(status);
    var summary := if isCurrent && text.Some? then CurrentTalkLine(text.value, s) else "";
    var fragment := Fragment(
      e.id, s.typeClass, s.slug, e.ts, s.hourText, s.minuteText, s.title, numberLabel,
      s.typeClass == "panel", speakers.names,
      !lightning, if lightning then None else Some(s.description),
      s.sponsorsHtml, speakers.html,
      !site.buttonsOff && !isCurrent, control);
    Drawn(fragment, summary)
  }
}

=== FILE: shortcodes.dfy ===
/** The attribute rules of the `[wpcs_sponsors]` and `[wpcs_speakers]` shortcodes:
    `str_to_bool`, sponsor-level selection, the speaker attribute whitelist, and the
    speaker IDs and track lists gathered from sessions. */
module Shortcodes {
  import opened Wrappers
  import opened Php

  // ---------------------------------------------------------------------------
  // str_to_bool
  // ---------------------------------------------------------------------------

  /** A shortcode attribute value: a default that is a PHP boolean, or a string. */
  datatype AttrValue = BoolAttr(b: bool) | StrAttr(s: string)

  const TrueWords: set<string> := {"yes", "true", "1"}

  /** `(string) trim($value)` of a non-`true` value: `false` becomes "". */
  function AsTrimmedString(v: AttrValue): string {
    match v
    case BoolAttr(b) => if b then "1" else ""
    case StrAttr(s) => Trim(s)
  }

  /** `str_to_bool`: `true`, or a string whose trimmed, lower-cased form is a true word. */
  function StrToBool(v: AttrValue): (r: bool)
    ensures v.BoolAttr? ==> r == v.b
    ensures v.StrAttr? ==> (r <==> Lower(Trim(v.s)) in TrueWords)
  {
    if v == BoolAttr(true) then true
    else Lower(AsTrimmedString(v)) in TrueWords
  }

  /** Surrounding whitespace does not change the answer. */
  lemma StrToBoolPadded(a: string, w: string, b: string)
    requires AllTrimmed(a) && AllTrimmed(b)
    requires |w| > 0 && !IsTrimmed(w[0]) && !IsTrimmed(w[|w| - 1])
    ensures StrToBool(StrAttr(a + w + b)) == StrToBool(StrAttr(w))
  {
    TrimOfPadded(a, w, b);
    TrimOfPadded("", w, "");
    assert "" + w + "" == w;
  }

  /** Letter case does not change the answer. */
  lemma StrToBoolCaseInsensitive(s: string)
    ensures StrToBool(StrAttr(Lower(s))) == StrToBool(StrAttr(s))
  {
    LowerTrim(s);
    LowerIdempotent(Trim(s));
  }

  /** The true words in any case and with any surrounding whitespace are true; every other
      word is false. */
  lemma StrToBoolWords(a: string, w: string, b: string)
    requires AllTrimmed(a) && AllTrimmed(b)
    requires |w| > 0 && !IsTrimmed(w[0]) && !IsTrimmed(w[|w| - 1])
    ensures StrToBool(StrAttr(a + w + b)) <==> Lower(w) in TrueWords
  {
    StrToBoolPadded(a, w, b);
    TrimOfPadded("", w, "");
    assert "" + w + "" == w;
  }

  lemma LowerIdempotent(s: string)
    ensures Lower(Lower(s)) == Lower(s)
  {
  }

  /** `strtolower` neither adds nor removes strippable characters. */
  lemma LowerKeepsTrimmed(c: char)
    ensures IsTrimmed(LowerChar(c)) <==> IsTrimmed(c)
  {
  }

  lemma {:induction false} LowerTrimStart(s: string)
    ensures TrimStart(Lower(s)) == Lower(TrimStart(s))
  {
    if |s| > 0 {
      LowerKeepsTrimmed(s[0]);
      assert Lower(s)[1..] == Lower(s[1..]);
      if IsTrimmed(s[0]) {
        LowerTrimStart(s[1..]);
      }
    }
  }

  lemma {:induction false} LowerTrimEnd(s: string)
    ensures TrimEnd(Lower(s)) == Lower(TrimEnd(s))
  {
    if |s| > 0 {
      var n := |s| - 1;
      LowerKeepsTrimmed(s[n]);
      LowerPrefix(s, n);
      if IsTrimmed(s[n]) {
        LowerTrimEnd(s[..n]);
      }
    }
  }

  lemma LowerPrefix(s: string, n: nat)
    requires n <= |s|
    ensures Lower(s)[..n] == Lower(s[..n])
  {
  }

  /** `trim` and `strtolower` commute. */
  lemma LowerTrim(s: string)
    ensures Trim(Lower(s)) == Lower(Trim(s))
  {
    LowerTrimStart(s);
    LowerTrimEnd(TrimStart(s));
  }

  // ---------------------------------------------------------------------------
  // [wpcs_sponsors]: level selection
  // ---------------------------------------------------------------------------

  /** A sponsor level term. */
  datatype Term = Term(slug: string, name: string)

  /** `$sortable[$term->slug] = $term` over the fetched terms: a later term with the same
      slug replaces an earlier one. */
  function SortableTerms(terms: seq<Term>): (m: map<string, Term>)
    ensures forall s :: s in m ==> m[s].slug == s
    ensures forall k :: 0 <= k < |terms| ==> terms[k].slug in m
    ensures forall s :: s in m ==> exists k :: 0 <= k < |terms| && terms[k] == m[s]
    decreases |terms|
  {
    if |terms| == 0 then map[]
    else
      var init := terms[..|terms| - 1];
      var last := terms[|terms| - 1];
      var m := SortableTerms(init);
      assert forall k :: 0 <= k < |init| ==> init[k] == terms[k];
      m[last.slug := last]
  }

  /** `explode(',', $attr)` when the attribute is not empty, none otherwise. */
  function SplitList(attr: string): (r: seq<string>)
    ensures attr == "" <==> r == []
  {
    if attr != "" then Explode(',', attr) else []
  }

  /** The terms in display order before the "has sponsors" test: one entry per listed level
      (`None` for a level with no term), or the fetched terms when no level is listed. */
  function CandidateTerms(levels: seq<string>, terms: seq<Term>): seq<Option<Term>> {
    if |levels| > 0 then
      var sortable := SortableTerms(terms);
      seq(|levels|, k requires 0 <= k < |levels| => Get(sortable, levels[k]))
    else
      seq(|terms|, k requires 0 <= k < |terms| => Some(terms[k]))
  }

  /** The display loop's tests, in the order written: skip a missing term; with a level list,
      skip a term not listed or excluded; skip a level without sponsor posts. */
  function DisplayedAsWritten(level: string, levels: seq<string>, exclude: seq<string>,
                              candidates: seq<Option<Term>>, withSponsors: set<string>): seq<Term>
  {
    if |candidates| == 0 then []
    else
      var rest := DisplayedAsWritten(level, levels, exclude, candidates[1..], withSponsors);
      match candidates[0]
      case None => rest
      case Some(t) =>
        if level != "" && (t.slug !in levels || t.slug in exclude) then rest
        else if t.slug !in withSponsors then rest
        else [t] + rest
  }

  /** `shortcode_sponsors`: the sponsor levels displayed, in order. `withSponsors` is the set
      of level slugs whose sponsor query has posts. */
  function SponsorLevels(level: string, exclude: string, terms: seq<Term>, withSponsors: set<string>): seq<Term> {
    var levels := SplitList(level);
    DisplayedAsWritten(level, levels, SplitList(exclude), CandidateTerms(levels, terms), withSponsors)
  }

  /** The levels shown for a level list: each listed slug, in listed order, that has a term,
      is not excluded and has sponsors. */
  function ListedLevels(levels: seq<string>, sortable: map<string, Term>, exclude: seq<string>,
                        withSponsors: set<string>): (r: seq<Term>)
    ensures forall k :: 0 <= k < |r| ==>
              r[k].slug in levels && r[k].slug !in exclude && r[k].slug in withSponsors
  {
    if |levels| == 0 then []
    else
      var rest := ListedLevels(levels[1..], sortable, exclude, withSponsors);
      var l := levels[0];
      if l in sortable && sortable[l].slug == l && l !in exclude && l in withSponsors
      then [sortable[l]] + rest else rest
  }

  lemma {:induction false} DisplayedMatchesListed(level: string, all: seq<string>, levels: seq<string>,
                                                  exclude: seq<string>, sortable: map<string, Term>,
                                                  withSponsors: set<string>)
    requires level != ""
    requires forall s :: s in sortable ==> sortable[s].slug == s
    requires forall k :: 0 <= k < |levels| ==> levels[k] in all
    ensures DisplayedAsWritten(level, all, exclude,
              seq(|levels|, k requires 0 <= k < |levels| => Get(sortable, levels[k])), withSponsors)
            == ListedLevels(levels, sortable, exclude, withSponsors)
  {
    var cands := seq(|levels|, k requires 0 <= k < |levels| => Get(sortable, levels[k]));
    if |levels| > 0 {
      var tailCands := seq(|levels[1..]|, k requires 0 <= k < |levels[1..]| => Get(sortable, levels[1..][k]));
      assert cands[1..] == tailCands;
      forall k | 0 <= k < |levels[1..]| ensures levels[1..][k] in all {
        assert levels[1..][k] == levels[k + 1];
      }
      DisplayedMatchesListed(level, all, levels[1..], exclude, sortable, withSponsors);
    }
  }

  /** With a level list, the levels shown are exactly the listed slugs, in listed order, that
      have a term, are not excluded and have sponsors. */
  lemma SponsorLevelsListed(level: string, exclude: string, terms: seq<Term>, withSponsors: set<string>)
    requires level != ""
    ensures SponsorLevels(level, exclude, terms, withSponsors)
            == ListedLevels(Explode(',', level), SortableTerms(terms), SplitList(exclude), withSponsors)
  {
    var levels := Explode(',', level);
    DisplayedMatchesListed(level, levels, levels, SplitList(exclude), SortableTerms(terms), withSponsors);
  }

  /** Without a level list, the fetched terms with sponsors are shown in fetched order and the
      `exclude` attribute is ignored. */
  lemma {:induction false} SponsorLevelsUnlisted(exclude: string, terms: seq<Term>, withSponsors: set<string>)
    ensures SponsorLevels("", exclude, terms, withSponsors)
            == Filter((t: Term) => t.slug in withSponsors, terms)
  {
    UnlistedKeepsOrder(exclude, terms, withSponsors);
  }

  lemma {:induction false} UnlistedKeepsOrder(exclude: string, terms: seq<Term>, withSponsors: set<string>)
    ensures DisplayedAsWritten("", [], SplitList(exclude),
              seq(|terms|, k requires 0 <= k < |terms| => Some(terms[k])), withSponsors)
            == Filter((t: Term) => t.slug in withSponsors, terms)
  {
    if |terms| > 0 {
      var cands := seq(|terms|, k requires 0 <= k < |terms| => Some(terms[k]));
      assert cands[1..] == seq(|terms[1..]|, k requires 0 <= k < |terms[1..]| => Some(terms[1..][k]));
      UnlistedKeepsOrder(exclude, terms[1..], withSponsors);
    }
  }

  // ---------------------------------------------------------------------------
  // [wpcs_speakers]: attributes
  // ---------------------------------------------------------------------------

  /** The normalised attributes the speaker query and markup use. */
  datatype SpeakerAtts = SpeakerAtts(
    showImage: bool,
    showContent: bool,
    orderby: string,
    order: string,
    speakerLink: string,
    track: seq<string>,
    groups: seq<string>,
    headingLevel: string)

  const OrderbyValues: set<string> := {"date", "title", "rand"}
  const OrderValues: set<string> := {"asc", "desc"}
  const HeadingLevels: set<string> := {"h2", "h3", "h4", "h5", "h6", "p"}

  /** The attribute as `shortcode_atts` leaves it: the given value or the default. */
  function Attr(given: map<string, string>, key: string, default: string): string {
    Get(given, key).GetOr(default)
  }

  /** `show_image`/`show_content`: the given string, or the boolean default `true`. */
  function FlagAttr(given: map<string, string>, key: string): AttrValue {
    if key in given then StrAttr(given[key]) else BoolAttr(true)
  }

  /** `array_filter(explode(',', $v))`: the comma-separated parts that are truthy. */
  function TruthyParts(v: string): (r: seq<string>)
    ensures forall k :: 0 <= k < |r| ==> Truthy(r[k]) && ',' !in r[k]
    ensures forall p :: p in r <==> p in Explode(',', v) && Truthy(p)
  {
    Filter((p: string) => Truthy(p), Explode(',', v))
  }

  function Whitelist(v: string, allowed: set<string>, fallback: string): (r: string)
    ensures v in allowed ==> r == v
    ensures v !in allowed ==> r == fallback
  {
    if v in allowed then v else fallback
  }

  /** `shortcode_speakers` attribute handling: `orderby`, `order` and `speaker_link` are
      lower-cased and whitelisted, `heading_level` is whitelisted as given. */
  function SpeakerAttributes(given: map<string, string>): (a: SpeakerAtts)
    ensures a.orderby in OrderbyValues && a.order in OrderValues && a.headingLevel in HeadingLevels
    ensures a.speakerLink == "permalink" || a.speakerLink == ""
    ensures a.orderby == (if Lower(Attr(given, "orderby", "date")) in OrderbyValues
                          then Lower(Attr(given, "orderby", "date")) else "date")
    ensures a.order == (if Lower(Attr(given, "order", "desc")) in OrderValues
                        then Lower(Attr(given, "order", "desc")) else "desc")
    ensures a.speakerLink == "permalink" <==> Lower(Attr(given, "speaker_link", "")) == "permalink"
    ensures a.headingLevel == (if Attr(given, "heading_level", "h2") in HeadingLevels
                               then Attr(given, "heading_level", "h2") else "h2")
    ensures "show_image" !in given ==> a.showImage
    ensures "show_content" !in given ==> a.showContent
    ensures forall k :: 0 <= k < |a.track| ==> Truthy(a.track[k])
    ensures forall k :: 0 <= k < |a.groups| ==> Truthy(a.groups[k])
    ensures a.track == TruthyParts(Attr(given, "track", ""))
    ensures a.groups == TruthyParts(Attr(given, "groups", ""))
  {
    SpeakerAtts(
      StrToBool(FlagAttr(given, "show_image")),
      StrToBool(FlagAttr(given, "show_content")),
      Whitelist(Lower(Attr(given, "orderby", "date")), OrderbyValues, "date"),
      Whitelist(Lower(Attr(given, "order", "desc")), OrderValues, "desc"),
      Whitelist(Lower(Attr(given, "speaker_link", "")), {"permalink"}, ""),
      TruthyParts(Attr(given, "track", "")),
      TruthyParts(Attr(given, "groups", "")),
      Whitelist(Attr(given, "heading_level", "h2"), HeadingLevels, "h2"))
  }

  /** Letter case of the `orderby` value does not matter. */
  lemma OrderbyCaseInsensitive(given: map<string, string>, v: string)
    ensures SpeakerAttributes(given["orderby" := Lower(v)]).orderby
            == SpeakerAttributes(given["orderby" := v]).orderby
  {
    LowerIdempotent(v);
  }

  /** Letter case of the `order` value does not matter. */
  lemma OrderCaseInsensitive(given: map<string, string>, v: string)
    ensures SpeakerAttributes(given["order" := Lower(v)]).order
            == SpeakerAttributes(given["order" := v]).order
  {
    LowerIdempotent(v);
  }

  /** Letter case of the `speaker_link` value does not matter. */
  lemma SpeakerLinkCaseInsensitive(given: map<string, string>, v: string)
    ensures SpeakerAttributes(given["speaker_link" := Lower(v)]).speakerLink
            == SpeakerAttributes(given["speaker_link" := v]).speakerLink
  {
    LowerIdempotent(v);
  }

  /** An upper-case heading level is not recognised. */
  lemma HeadingLevelCaseSensitive()
    ensures SpeakerAttributes(map["heading_level" := "H3"]).headingLevel == "h2"
  {
    var given := map["heading_level" := "H3"];
    assert Attr(given, "heading_level", "h2") == "H3";
    assert "H3" !in HeadingLevels;
  }

  // ---------------------------------------------------------------------------
  // [wpcs_speakers]: speaker IDs and tracks
  // ---------------------------------------------------------------------------

  /** A session as the speaker shortcode reads it: its `_rwc_cs_speaker_id` values and the
      slugs of its track terms. */
  datatype SessionRow = SessionRow(speakerIds: seq<string>, trackSlugs: seq<string>)

  /** The speaker IDs of all sessions, concatenated (`array_merge`). */
  function AllSpeakerIds(sessions: seq<SessionRow>): seq<string> {
    if |sessions| == 0 then [] else AllSpeakerIds(sessions[..|sessions| - 1]) + sessions[|sessions| - 1].speakerIds
  }

  /** `array_unique($speaker_ids)`. */
  function SpeakerIds(sessions: seq<SessionRow>): (r: seq<string>)
    ensures NoDuplicates(r)
  {
    Dedup(AllSpeakerIds(sessions))
  }

  /** Some session lists the speaker. */
  ghost predicate Speaks(sessions: seq<SessionRow>, id: string) {
    exists j :: 0 <= j < |sessions| && id in sessions[j].speakerIds
  }

  /** Some session the speaker is listed in has the track. */
  ghost predicate OnTrack(sessions: seq<SessionRow>, id: string, t: string) {
    exists j :: 0 <= j < |sessions| && id in sessions[j].speakerIds && t in sessions[j].trackSlugs
  }

  lemma {:induction false} AllSpeakerIdsMembers(sessions: seq<SessionRow>, id: string)
    ensures id in AllSpeakerIds(sessions) <==> Speaks(sessions, id)
    decreases |sessions|
  {
    if |sessions| > 0 {
      var init := sessions[..|sessions| - 1];
      AllSpeakerIdsMembers(init, id);
      if Speaks(sessions, id) && !Speaks(init, id) {
        assert id in sessions[|sessions| - 1].speakerIds;
      }
      if Speaks(init, id) {
        var j :| 0 <= j < |init| && id in init[j].speakerIds;
        assert sessions[j] == init[j];
      }
      if id in sessions[|sessions| - 1].speakerIds {
        assert Speaks(sessions, id);
      }
    }
  }

  /** The collected IDs are exactly the speakers of the sessions, each once. */
  lemma SpeakerIdsExact(sessions: seq<SessionRow>, id: string)
    ensures id in SpeakerIds(sessions) <==> Speaks(sessions, id)
  {
    AllSpeakerIdsMembers(sessions, id);
    var all := AllSpeakerIds(sessions);
    if id in all {
      var k :| 0 <= k < |all| && all[k] == id;
      assert all[k] in SpeakerIds(sessions);
    }
  }

  /** The track slugs gathered for speaker `id`: for every listing of the speaker in a
      session, that session's slugs. */
  function AllTracks(sessions: seq<SessionRow>, id: string): seq<string> {
    if |sessions| == 0 then []
    else
      var last := sessions[|sessions| - 1];
      AllTracks(sessions[..|sessions| - 1], id) + RepeatTracks(last.speakerIds, id, last.trackSlugs)
  }

  /** The slugs once per occurrence of `id` in the session's speaker list. */
  function RepeatTracks(ids: seq<string>, id: string, slugs: seq<string>): (r: seq<string>)
    ensures id in ids ==> forall t :: t in slugs ==> t in r
    ensures forall t :: t in r ==> t in slugs && id in ids
  {
    if |ids| == 0 then []
    else (if ids[0] == id then slugs else []) + RepeatTracks(ids[1..], id, slugs)
  }

  /** `array_unique` of a speaker's gathered tracks. */
  function SpeakerTracks(sessions: seq<SessionRow>, id: string): (r: seq<string>)
    ensures NoDuplicates(r)
  {
    Dedup(AllTracks(sessions, id))
  }

  lemma {:induction false} AllTracksMembers(sessions: seq<SessionRow>, id: string, t: string)
    ensures t in AllTracks(sessions, id) <==> OnTrack(sessions, id, t)
    decreases |sessions|
  {
    if |sessions| > 0 {
      var init := sessions[..|sessions| - 1];
      var last := sessions[|sessions| - 1];
      AllTracksMembers(init, id, t);
      if OnTrack(init, id, t) {
        var j :| 0 <= j < |init| && id in init[j].speakerIds && t in init[j].trackSlugs;
        assert sessions[j] == init[j];
      }
      if OnTrack(sessions, id, t) && !OnTrack(init, id, t) {
        var j :| 0 <= j < |sessions| && id in sessions[j].speakerIds && t in sessions[j].trackSlugs;
        assert j == |sessions| - 1;
        assert t in RepeatTracks(last.speakerIds, id, last.trackSlugs);
      }
      if t in RepeatTracks(last.speakerIds, id, last.trackSlugs) {
        assert OnTrack(sessions, id, t);
      }
    }
  }

  /** A speaker's track list holds each track of a session they speak in, once. */
  lemma SpeakerTracksExact(sessions: seq<SessionRow>, id: string, t: string)
    ensures t in SpeakerTracks(sessions, id) <==> OnTrack(sessions, id, t)
  {
    AllTracksMembers(sessions, id, t);
    var all := AllTracks(sessions, id);
    if t in all {
      var k :| 0 <= k < |all| && all[k] == t;
      assert all[k] in SpeakerTracks(sessions, id);
    }
  }
}

=== FILE: slot_walk.dfy ===
/** The hour-keyed schedule snapshot and the 24-index slot walk of `wpcs_schedule`. */
module SlotWalk {

  /** An hour of the day, as `gmdate('H', ...)` and `date('H')` yield it. */
  type Hour = h: int | 0 <= h < 24

  /** One snapshot entry: the session's post ID and its ISO-8601 timestamp string. */
  datatype Entry = Entry(id: int, ts: string)

  /** A published session as the snapshot loop reads it: its post ID, the hour of its
      `_wpcs_session_time` meta and that time formatted as `Y-m-d\TH:i:s\Z`. */
  datatype SessionPost = SessionPost(id: int, hour: Hour, ts: string)

  /** `$schedule`: hour of day to the session occupying it. */
  type Snapshot = map<int, Entry>

  function EntryOf(p: SessionPost): Entry {
    Entry(p.id, p.ts)
  }

  /** Some post among `posts` is scheduled in hour `h`. */
  ghost predicate Scheduled(posts: seq<SessionPost>, h: int) {
    exists k :: 0 <= k < |posts| && posts[k].hour == h
  }

  /** `$schedule[$time] = array(...)` over the posts in query order: one entry per hour
      that some post is scheduled in, and no other key. */
  function BuildSnapshot(posts: seq<SessionPost>): (snap: Snapshot)
    ensures forall h :: h in snap ==> 0 <= h < 24
    ensures forall h :: h in snap <==> Scheduled(posts, h)
    decreases |posts|
  {
    if |posts| == 0 then map[]
    else
      var init := posts[..|posts| - 1];
      var last := posts[|posts| - 1];
      var snap := BuildSnapshot(init)[last.hour := EntryOf(last)];
      assert forall h :: Scheduled(posts, h) <==> Scheduled(init, h) || h == last.hour by {
        forall h ensures Scheduled(posts, h) <==> Scheduled(init, h) || h == last.hour {
          if Scheduled(init, h) {
            var k :| 0 <= k < |init| && init[k].hour == h;
            assert posts[k].hour == h;
          }
          if Scheduled(posts, h) && h != last.hour {
            var k :| 0 <= k < |posts| && posts[k].hour == h;
            assert init[k].hour == h;
          }
        }
      }
      snap
  }

  /** Last write wins: the entry for an hour is the last post scheduled in that hour. */
  lemma {:induction false} LastWriteWins(posts: seq<SessionPost>, k: int)
    requires 0 <= k < |posts|
    requires forall j :: k < j < |posts| ==> posts[j].hour != posts[k].hour
    ensures posts[k].hour in BuildSnapshot(posts)
    ensures BuildSnapshot(posts)[posts[k].hour] == EntryOf(posts[k])
    decreases |posts|
  {
    if k < |posts| - 1 {
      var init := posts[..|posts| - 1];
      assert init[k] == posts[k];
      LastWriteWins(init, k);
    }
  }

  /** A later post in the same hour replaces the earlier entry and leaves the other hours alone. */
  lemma LaterPostOverwrites(posts: seq<SessionPost>, p: SessionPost)
    ensures BuildSnapshot(posts + [p]) == BuildSnapshot(posts)[p.hour := EntryOf(p)]
  {
    assert (posts + [p])[..|posts|] == posts;
  }

  /** The hour loop index `i` names: `24 - absint($i)` when `$i` is negative, `$i` otherwise. */
  function Base(i: int): (h: int)
    ensures -24 <= i < 24 ==> h == i % 24
  {
    if i < 0 then 24 - (-i) else i
  }

  /** Two loop indices less than 24 apart name different hours, whatever the start. */
  lemma BaseInjective(i: int, j: int)
    requires i < j < i + 24
    ensures Base(i) != Base(j)
  {
  }

  /** Some loop index of the walk ending at `start` names hour `h`. */
  ghost predicate Visited(start: int, h: int) {
    exists i :: start - 24 <= i < start && Base(i) == h
  }

  /** For a start hour between 0 and 24, the 24 loop indices `start - 24 .. start - 1`
      name every hour of the day exactly once, beginning with `start mod 24`. */
  lemma WalkCoversDay(start: int)
    requires 0 <= start <= 24
    ensures Base(start - 24) == start % 24
    ensures forall i :: start - 24 <= i < start ==> 0 <= Base(i) < 24
    ensures forall i, j :: start - 24 <= i < j < start ==> Base(i) != Base(j)
    ensures forall h :: 0 <= h < 24 ==> Visited(start, h)
  {
    forall h | 0 <= h < 24
      ensures Visited(start, h)
    {
      var i := if h < start then h else h - 24;
      assert Base(i) == h;
    }
  }

  /** The loop indices in `lo .. hi - 1` whose hour is in the snapshot, in loop order:
      the slots that get past the `isset($schedule[$time])` test. */
  function Populated(snap: Snapshot, lo: int, hi: int): (p: seq<int>)
    ensures forall k :: 0 <= k < |p| ==> lo <= p[k] < hi && Base(p[k]) in snap
    ensures forall k, l :: 0 <= k < l < |p| ==> p[k] < p[l]
    decreases hi - lo
  {
    if hi <= lo then []
    else
      var prev := Populated(snap, lo, hi - 1);
      if Base(hi - 1) in snap then prev + [hi - 1] else prev
  }

  /** No populated slot of `lo .. hi - 1` is left out. */
  lemma {:induction false} PopulatedComplete(snap: Snapshot, lo: int, hi: int, i: int)
    requires lo <= i < hi && Base(i) in snap
    ensures i in Populated(snap, lo, hi)
    decreases hi - lo
  {
    if i < hi - 1 {
      PopulatedComplete(snap, lo, hi - 1, i);
    }
  }

  /** Some slot of `p` names hour `h`. */
  ghost predicate HourDrawn(p: seq<int>, h: int) {
    exists k :: 0 <= k < |p| && Base(p[k]) == h
  }

  /** With a start hour between 0 and 24, every hour of the snapshot is visited by exactly
      one populated slot. Only the coverage needs the bound; see `PopulatedHoursDistinct`. */
  lemma EveryHourDrawnOnce(snap: Snapshot, start: int)
    requires 0 <= start <= 24
    requires forall h :: h in snap ==> 0 <= h < 24
    ensures forall h :: h in snap ==> HourDrawn(Populated(snap, start - 24, start), h)
    ensures var p := Populated(snap, start - 24, start);
            forall k, l :: 0 <= k < l < |p| ==> Base(p[k]) != Base(p[l])
  {
    WalkCoversDay(start);
    var p := Populated(snap, start - 24, start);
    forall h | h in snap
      ensures HourDrawn(p, h)
    {
      assert Visited(start, h);
      var i :| start - 24 <= i < start && Base(i) == h;
      PopulatedComplete(snap, start - 24, start, i);
      var k :| 0 <= k < |p| && p[k] == i;
      assert Base(p[k]) == h;
    }
    PopulatedHoursDistinct(snap, start);
  }

  /** Over any walk of 24 indices, no two populated slots name the same hour. */
  lemma PopulatedHoursDistinct(snap: Snapshot, start: int)
    ensures var p := Populated(snap, start - 24, start);
            forall k, l :: 0 <= k < l < |p| ==> Base(p[k]) != Base(p[l])
  {
    var p := Populated(snap, start - 24, start);
    forall k, l | 0 <= k < l < |p|
      ensures Base(p[k]) != Base(p[l])
    {
      assert start - 24 <= p[k] < p[l] < start;
      BaseInjective(p[k], p[l]);
    }
  }

}

=== FILE: wrappers.dfy ===
/** The optional-value datatype shared by every module of the model. */
module Wrappers {

  /** A value that may be absent: a PHP `null`, an unset array slot, a missing key. */
  datatype Option<+T> = None | Some(value: T) {

    /** Returns the value if present, otherwise `default`. */
    function GetOr(default: T): T {
      match this
      case Some(v) => v
      case None => default
    }
  }
}
